=== FILE: README.md ===
# Icinga 2 host core in Dafny

This project models the host object of Icinga 2 (`lib/icinga/host.cpp`): its
reachability verdict, the reconciler that turns a host's `services`
dictionary into child ("slave") service configuration items, the static
services-by-host index cache, the dynamic macro snapshot, the validator of
service dictionaries, the display name and the attribute-change dispatch.

Modules, one per concern:

- `Values` (values.dfy): dynamically typed values, ordered dictionaries as
  entry sequences (`Get` returns the first entry with a key, `Empty` when none),
  the error kinds the host code raises, and `Result`/`Option`/`Outcome`.
- `Objects` (objects.dfy): service and host records and a `World` snapshot of
  the live hosts and services, the display name and the host-check service
  (a weak reference that is live only while its service exists).
- `ServicesCache` (services_cache.dfy): the cache as a class `ServicesIndex`
  with fields `valid` and `cache`. The pure `Index` function is the rebuild.
  The pure `ResolveShortName` function is the short-name lookup.
- `Reachability` (reachability.dfy): `GetParentHosts`,
  `GetParentServices` and the verdict `Reachable` as functions. `IsReachable`
  is a method that runs the lookups through the cache. `ServicesPass` and
  `HostsPass` are the two early-exit loops.
- `SlaveServices` (slave_services.dfy): `CopyServiceAttributes`, the child
  builder of one entry and the slave-services dictionary. `Reconcile` is the
  whole of `UpdateSlaveServices` as a function of the state before it.
- `ConfigRegistry` and `HostGroups` (registry.dfy): the registry the
  reconciler commits to and unregisters from, and the host-group members cache.
  Only the registry's effects are modelled.
- `Hosts` (hosts.dfy): the class `Host` with its attributes, `slave_services`
  and host-check reference. Its methods are `UpdateSlaveServices`,
  `OnRegistrationCompleted` and `OnAttributeChanged`, each proved equal to the
  pure specification.
- `Macros` (macros.dfy): `CalculateDynamicMacros`.
- `Validation` (validation.dfy): `ValidateServiceDictionary` against a
  compiler-context class.
- `Scenarios` (scenarios.dfy): host B with `services = { http = { check_interval = 60 }, ssh = "ssh-template" }`,
  then with `ssh` removed.

A scalar `services` entry names its child after the scalar's value, not after
the key. In the example this gives `B-ssh-template` (lib/icinga/host.cpp:249-254).

## Model

| member | source | states |
|---|---|---|
| Objects.GetDisplayName | lib/icinga/host.cpp:64-70 | the display name when one is set, otherwise the host's name |
| Objects.GetHostCheckService | lib/icinga/host.cpp:494-497 | the weak host-check reference yields a service exactly when it names a live service, and then that service |
| ServicesCache.Index | lib/icinga/host.cpp:368-392 | the rebuild from the enumeration of all services; every host it holds has a non-empty per-host map (its contents are pinned down by the next two rows) |
| ServicesCache.IndexLastWins | lib/icinga/host.cpp:370-392 | after a rebuild, `cache[h][s]` holds the last enumerated service with host `h` and short name `s` (later duplicates overwrite) |
| ServicesCache.IndexOnlyEnumerated | lib/icinga/host.cpp:370-392 | every entry of a rebuilt cache comes from an enumerated service, the last one with that host and short name |
| ServicesCache.ResolveShortName | lib/icinga/host.cpp:447-473 | a scalar that the host's part of the index holds resolves to the indexed service when it is live (an expired reference is an error); one it lacks resolves to the service of that global name, else raises "no such service"; a `{host, service}` pair raises on an unconvertible or unknown host and on a missing `service` field; any other shape raises the invalid name-pair error |
| ServicesCache.ResolveDelegates | lib/icinga/host.cpp:467-469 | a `{host, service}` pair naming a known host, with a `service` field, resolves as that field's value under that host |
| ServicesCache.FreshIndexLive | lib/icinga/host.cpp:454-463 | when every enumerated service is live, a fresh rebuild holds no expired reference, so each cache hit resolves to its indexed service |
| ServicesCache.ResolvedIsLive | lib/icinga/host.cpp:447-473 | a successful short-name lookup always yields a live service |
| ServicesCache.ResolveSameInner | lib/icinga/host.cpp:447-473 | a lookup reads only the per-host maps, so the empty entries a lookup leaves behind change no later answer |
| ServicesCache.ServicesIndex.constructor | lib/icinga/host.cpp:25-26 | the cache starts valid and empty |
| ServicesCache.ServicesIndex.Invalidate | lib/icinga/host.cpp:353-358 | clears the cache and marks it invalid |
| ServicesCache.ServicesIndex.Validate | lib/icinga/host.cpp:363-395 | a valid cache is left alone; an invalid one becomes valid and equal to the rebuild from the enumeration of all services |
| ServicesCache.ServicesIndex.GetServices | lib/icinga/host.cpp:332-351 | validates, then returns exactly the live services indexed under the host; the host gets an (empty) entry |
| ServicesCache.ServicesIndex.GetServiceByShortName | lib/icinga/host.cpp:447-473 | a scalar is looked up in the host's part of the validated cache, then by global name; `{host, service}` delegates to that host (unknown host, missing `service` field and other shapes raise); the result equals `ResolveShortName` on the cache as lookups see it |
| Reachability.ParentHostsOf | lib/icinga/host.cpp:475-492 | parent hosts are exactly the hosts named by dependency entries other than the host's own name; the host itself is never among them; resolution fails exactly when some other entry names no host |
| Reachability.GetParentHosts | lib/icinga/host.cpp:475-492 | the host is never its own parent |
| Reachability.ParentServicesOf | lib/icinga/host.cpp:499-513 | parent services are exactly the live services the dependency entries resolve to; the first entry that does not resolve raises |
| Reachability.ParentHostsFirstError | lib/icinga/host.cpp:483-488 | a failed resolution of parent hosts reports the error of the first entry that neither names the host itself nor converts to the name of a known host (its conversion error, or no such host); every earlier entry resolved |
| Reachability.ParentServicesFirstError | lib/icinga/host.cpp:505-510 | a failed resolution of parent services reports exactly the error `GetServiceByShortName` raises for the first entry that does not resolve; every earlier entry resolved |
| Reachability.Reachable | lib/icinga/host.cpp:118-171 | a failure to resolve the service dependencies raises; a resolved service dependency that disqualifies gives false before parent hosts are looked at; once every parent service passes, a failure to resolve the parent hosts raises that error; when both lists resolve the verdict is never an error, and a parent host that does not pass gives false; true only when the parent hosts resolve |
| Reachability.ServicesPass | lib/icinga/host.cpp:127-144 | the loop passes exactly when every dependency service is pending, soft, OK or Warning |
| Reachability.HostsPass | lib/icinga/host.cpp:153-168 | the loop passes exactly when every parent host has a live host-check service in state OK |
| Reachability.ResolveParentServices | lib/icinga/host.cpp:120-125 | resolving the dependencies through the cache yields `GetParentServices` on the cache contents lookups see |
| Reachability.IsReachable | lib/icinga/host.cpp:118-171 | the method's verdict, or the error it raises, equals `Reachable`: services are checked first, parent hosts only afterwards |
| Reachability.ReachableByEntries | lib/icinga/host.cpp:127-170 | reachable exactly when every service dependency resolves to a pending, soft, OK or Warning service and every other host dependency names a host whose host check is exactly OK |
| Reachability.ParentNotUpMakesUnreachable | lib/icinga/host.cpp:153-168 | a parent host with a missing or expired host check, or one in Warning or worse, makes the host not reachable; when both dependency lists resolve the verdict is exactly false |
| Reachability.FailingServiceMakesUnreachable | lib/icinga/host.cpp:127-144 | a hard non-OK, non-Warning service dependency with a result makes the host not reachable; when the service dependencies resolve the verdict is exactly false |
| Reachability.NoDependenciesReachable | lib/icinga/host.cpp:118-171 | a host with no dependencies is reachable |
| Reachability.SelfDependencyIgnored | lib/icinga/host.cpp:483-485 | adding an entry that names the host itself to its host dependencies leaves the verdict (or the error) unchanged, whatever the other dependencies |
| Reachability.PingCriticalUnreachable | lib/icinga/host.cpp:127-144 | a host whose only dependency is in hard Critical is unreachable |
| Reachability.PingOkReachable | lib/icinga/host.cpp:118-171 | once that dependency is in hard OK the host is reachable |
| SlaveServices.CopyKeys | lib/icinga/host.cpp:179-211 | an expression for each listed attribute that is non-empty in the description, with the listed operator and the attribute's value, and nothing else |
| SlaveServices.CopyServiceAttributes | lib/icinga/host.cpp:173-212 | macros and servicegroups merge, the check intervals, checkers and short name replace; the dependency lists (merge) only when `copyServiceAttrs`; nothing for empty attributes |
| SlaveServices.CopyKeysLastValue | lib/icinga/host.cpp:179-211 | the last expression copied for a key holds the description's value exactly when the key is listed and the value is non-empty |
| SlaveServices.CopiedLastValue | lib/icinga/host.cpp:183-201 | for an attribute that replaces, the copied expressions end with the description's value, if it has one |
| SlaveServices.TemplateNames | lib/icinga/host.cpp:272-276 | the template names in order, each value converted to a string; it raises the conversion error exactly when some value does not convert |
| SlaveServices.DescriptionError | lib/icinga/host.cpp:265-284 | a scalar entry, or a dictionary whose `templates` converts to a dictionary whose values all convert to strings, builds; a dictionary with any other `templates`, or with a template value that is not a string, raises the conversion error; any other entry raises "must be either a string or a dictionary" |
| SlaveServices.ChildBuilder | lib/icinga/host.cpp:248-284 | a child is built exactly for the entries that do not raise; it is a Service named host + "-" + service name, with the entry's parents and expressions |
| SlaveServices.ChildBuilderShape | lib/icinga/host.cpp:256-281 | the child's first expressions set host_name, display_name and short_name; its parents are the scalar, else the `templates` values in order converted to strings, else the key |
| SlaveServices.ChildDependencies | lib/icinga/host.cpp:263-281 | a `servicedependencies` or `hostdependencies` expression of a child comes only from a dictionary entry, never from the host, and does come when the entry has a non-empty one |
| SlaveServices.EntryOverridesHost | lib/icinga/host.cpp:263-281 | for an attribute that replaces, the entry's own value takes effect over the host's; without one, the host's value takes effect |
| SlaveServices.ChildNameInjective | lib/icinga/host.cpp:249-254 | two entries give the same child name exactly when their service names agree |
| SlaveServices.Put | lib/icinga/host.cpp:289 | dictionary Set: the keys become the old keys plus the new one; the key holds the new item; every other entry is kept; nothing else is added; unique keys stay unique |
| SlaveServices.NewServices | lib/icinga/host.cpp:245-291 | the new dictionary's keys are exactly the child names, each mapped to the item of that name, with no key twice |
| SlaveServices.Builders | lib/icinga/host.cpp:248-286 | one builder per entry, in order |
| SlaveServices.FirstInvalid | lib/icinga/host.cpp:265-284 | locates the first entry that raises; all before it build |
| SlaveServices.StaleExactly | lib/icinga/host.cpp:293-302 | exactly the non-null old items whose names are absent from the new dictionary are unregistered |
| SlaveServices.StaleOnce | lib/icinga/host.cpp:293-302 | when the old items are distinct, no item is unregistered twice |
| SlaveServices.PersistingNotUnregistered | lib/icinga/host.cpp:299-300 | a service whose name persists is not unregistered |
| SlaveServices.StaleNone | lib/icinga/host.cpp:293-302 | nothing is unregistered when every old item persists |
| SlaveServices.ReconcileAgainUnregistersNothing | lib/icinga/host.cpp:293-302 | diffing the new dictionary against itself unregisters nothing |
| SlaveServices.Reconcile | lib/icinga/host.cpp:214-307 | commits and unregistrations only grow; a live item disappears only by being unregistered; a failure leaves the dictionary and the unregistrations alone; a success that changes anything leaves a dictionary with distinct keys, each mapped to its own item |
| SlaveServices.ReconcileSkipsTemplates | lib/icinga/host.cpp:225-230 | an abstract host or one without a configuration item changes nothing |
| SlaveServices.ReconcileUnconvertibleServices | lib/icinga/host.cpp:232-233 | a `services` value that is neither empty nor a dictionary raises the conversion error and changes nothing |
| SlaveServices.ReconcileInvalidEntry | lib/icinga/host.cpp:265-287 | an entry that cannot be built raises (invalid description or conversion error); `slave_services` and the unregistrations are untouched; exactly the children of the entries before the first such entry stay committed and live |
| SlaveServices.ReconcileSuccess | lib/icinga/host.cpp:245-306 | on success the new dictionary holds exactly the child names, with distinct keys each mapped to its item, and every child is live |
| SlaveServices.ReconcileSuccessUnregisters | lib/icinga/host.cpp:293-302 | on success exactly the non-null old items whose names are no key of the new dictionary are unregistered |
| SlaveServices.ReconcileIdempotent | lib/icinga/host.cpp:214-307 | reconciling again with an unchanged `services` attribute keeps the dictionary and unregisters nothing |
| SlaveServices.ReconcileUnregistersOnce | lib/icinga/host.cpp:293-302 | starting from a dictionary a reconciliation left, no child is unregistered twice in one pass |
| ConfigRegistry.Registry.Commit | lib/icinga/host.cpp:286-287 | compiling and committing a builder logs it and makes an item of the builder's name live |
| ConfigRegistry.Registry.Unregister | lib/icinga/host.cpp:299-300 | logs the unregistration and removes the item from the live set |
| HostGroups.MembersCache.Invalidate | lib/icinga/host.cpp:48 | records one invalidation of the host-group members cache |
| Hosts.Host.constructor | lib/icinga/host.cpp:32-42 | a new host has its attributes, no slave services and no host-check service |
| Hosts.Host.UpdateSlaveServices | lib/icinga/host.cpp:214-307 | the new outcome, dictionary, commit log, unregistration log and live set equal `Reconcile` of the old state |
| Hosts.CommitChildren | lib/icinga/host.cpp:245-291 | commits one child per entry in order and stops with its error at the first entry that cannot be built, keeping the earlier commits; otherwise returns the new dictionary |
| Hosts.UnregisterStale | lib/icinga/host.cpp:293-302 | unregisters exactly the stale old items, in order, and removes them from the live set |
| Hosts.Host.OnRegistrationCompleted | lib/icinga/host.cpp:44-50 | invalidates the host-group members once, then reconciles as `Reconcile` says |
| Hosts.Host.OnAttributeChanged | lib/icinga/host.cpp:309-330 | `hostgroups` invalidates the members cache; `services` reconciles; `hostcheck` stores the short-name lookup of the host check, or raises with the reference unchanged; any other attribute changes nothing |
| Macros.BuildMacros | lib/icinga/host.cpp:517-577 | the snapshot satisfies `MacrosFor`: identity keys always; state keys only with a host check; HOSTSTATE/HOSTSTATEID are UP/0 for OK or Warning, DOWN/1 otherwise, UNREACHABLE/2 when unreachable; output keys only with a check result |
| Macros.SetStateMacros | lib/icinga/host.cpp:538-562 | adds exactly the state keys, keeps every other key, and gives HOSTSTATE/HOSTSTATEID, the state type and the attempts of the host check |
| Macros.SetResultMacros | lib/icinga/host.cpp:567-575 | adds exactly the result keys, keeps every other key, and gives latency, execution time, output and performance data of the check result |
| Macros.CalculateDynamicMacros | lib/icinga/host.cpp:515-580 | the snapshot is built from the host-check service and the `Reachable` verdict; an error while computing the verdict propagates; the services cache stays valid if it was; a valid cache afterwards has the per-host maps of the cache the lookups saw, and an invalid one is unchanged |
| Macros.StateIdMeaning | lib/icinga/host.cpp:541-559 | HOSTSTATEID is 2 exactly when unreachable, 0 exactly when reachable and OK or Warning, 1 exactly when reachable and worse; HOSTSTATE names the same state |
| Macros.NoHostCheckIdentityOnly | lib/icinga/host.cpp:524-535 | without a host check only HOSTNAME, HOSTDISPLAYNAME and HOSTALIAS are present |
| Macros.OutputKeysIffResult | lib/icinga/host.cpp:535-575 | output and perfdata keys appear exactly when the host check has a result; state keys exactly when there is a host check |
| Macros.MacrosDetermined | lib/icinga/host.cpp:515-580 | the snapshot is uniquely determined by the host, its host check and the verdict |
| Validation.CompilerContext.AddError | lib/icinga/host.cpp:439-440 | appends one error to the context |
| Validation.NameOf | lib/icinga/host.cpp:413-424 | a scalar names itself; a dictionary names its `service` field if it has one, else the key; anything else is skipped |
| Validation.Messages | lib/icinga/host.cpp:438-441 | one non-fatal "Validation failed for <location>: Service '<name>' not found." per unresolved name, in order |
| Validation.Scan | lib/icinga/host.cpp:410-442 | the pass over the entries; with no compiler context it reports no names |
| Validation.Step | lib/icinga/host.cpp:411-441 | one entry either reports nothing or, inside a compiler context, reports exactly its own unresolved name and goes on |
| Validation.ValidateServiceDictionary | lib/icinga/host.cpp:397-445 | fewer than one or two arguments raise the two missing-argument messages; an unconvertible location or a non-dictionary raises; otherwise the outcome and the errors added to the context are those of `Scan` |
| Validation.ScanEntries | lib/icinga/host.cpp:410-442 | the loop's outcome and recorded errors equal `Scan` over the entries |
| Validation.CheckEntry | lib/icinga/host.cpp:411-441 | one iteration's outcome and recorded error equal `Step` |
| Validation.ScanStops | lib/icinga/host.cpp:410-442 | once the pass fails on a prefix, later entries change nothing |
| Validation.ScanReportsUnresolved | lib/icinga/host.cpp:426-441 | a successful pass reports exactly the names that do not resolve, and reports any only inside a compiler context |
| Validation.ScanFailsOnlyAt | lib/icinga/host.cpp:413-441 | the pass fails only at an unconvertible `service` field or at an unresolved name while no compiler context exists |
| Validation.AllResolvedAccepted | lib/icinga/host.cpp:426-441 | when every named service resolves, the pass succeeds and reports nothing |
| Validation.ContextWithoutLinkIgnoresRegistry | lib/icinga/host.cpp:433-436 | inside a context without CompilerLinkExisting only the context's own items resolve |
| Scenarios.ExampleChildren | lib/icinga/host.cpp:249-279 | `http = {...}` gives B-http with parent "http"; `ssh = "ssh-template"` gives B-ssh-template with parent "ssh-template" |
| Scenarios.DictionaryTemplateRaises | lib/icinga/host.cpp:272-276 | under the assumed conversion of a dictionary to a string (see Left out), a template value that is itself a dictionary makes the entry raise the conversion error |
| Scenarios.ExampleFirstReconcile | lib/icinga/host.cpp:245-306 | the first reconciliation of B holds exactly B-http and B-ssh-template |
| Scenarios.ExampleSecondReconcile | lib/icinga/host.cpp:245-306 | after `ssh` is dropped, the next reconciliation of B holds exactly B-http |
| Scenarios.ExampleSecondUnregisters | lib/icinga/host.cpp:293-302 | starting from the first reconciliation's dictionary, that pass unregisters exactly B-ssh-template |

## Left out

- Locking (`ObjectLock`, `m_Mutex`): every operation is modelled as atomic. Concurrent changes to the hosts and services during an operation are not modelled. A fixed `World` snapshot stands in for the object registry.
- The destructor (lib/icinga/host.cpp:52-62), which unregisters all slave services, is not modelled.
- The `notifications` branch of `OnAttributeChanged` (lib/icinga/host.cpp:315-325) is a no-op in the model. `Service::UpdateSlaveNotifications` is not part of this model.
- Script-function registration (lib/icinga/host.cpp:28) and `task->FinishResult` (lib/icinga/host.cpp:444) are not modelled; `ValidateServiceDictionary` returns its outcome instead.
- Trivial getters (`GetGroups`, `GetMacros`, `Exists`) are not modelled. The dependency and host-check getters appear as `Objects.HostDependencies`, `Objects.ServiceDependencies` and `Objects.GetHostCheck`.
- Compilation and commit of a builder (`ConfigItemBuilder::Compile`, `ConfigItem::Commit`) cannot fail in the model. The item always takes the builder's name. Debug information is not kept.
- Value conversions are modelled as follows:
  - a scalar converts to its text and an empty value to "";
  - a conversion to a dictionary pointer turns an empty value into a null pointer (iterated as nothing), keeps a dictionary, and raises `InvalidConversion` for anything else; this applies to `services` (lib/icinga/host.cpp:233) and `templates` (lib/icinga/host.cpp:270);
  - numbers are kept in string form;
  - a dictionary or other object converted to a string is assumed to raise `InvalidConversion`. `Value` is not part of this model. The members that rely on this are SlaveServices.TemplateNames, SlaveServices.DescriptionError, Reachability.ParentHostsOf, ServicesCache.ResolveShortName, Validation.NameOf and Scenarios.DictionaryTemplateRaises.
- Reachability.GetParentHosts, Reachability.GetParentServices: a `hostdependencies` or `servicedependencies` value that is not a dictionary reads as no dependencies. The source returns these attributes as dictionary pointers (lib/icinga/host.cpp:103-111), where such a value would not convert.
- `Service::GetByName` is assumed to raise for an unknown name, as `Host::GetByName` does.
- `m_SlaveServices`, read at lib/icinga/host.cpp:232, is assumed to be the attribute `slave_services` written at lib/icinga/host.cpp:306; the model keeps one field for both. Without that link no child would ever be unregistered.
- Macros.OutputKeysIffResult: `Dictionary::Set` is assumed to store an empty value under its key (lib/icinga/host.cpp:573-574), so HOSTOUTPUT and HOSTPERFDATA are present even when the result lacks them. `Dictionary` is not part of this model.
- Macros.BuildMacros: HOSTLATENCY and HOSTEXECUTIONTIME are uninterpreted (floating-point). HOSTSTATETYPE keeps the state-type enumerator, not its text from `Service::StateTypeToString`.
- ServicesCache.ResolveShortName: a cache hit whose weak reference has expired is an `ExpiredReference` error. The source only `assert`s here. `FreshIndexLive` shows this cannot happen right after a rebuild from live services.
- Objects.GetDisplayName: a display name that is set but is not a string is treated as absent. The source would convert it.
- Validation.ValidateServiceDictionary: a second argument that is not a dictionary raises `InvalidArgument`. The source dereferences a null or fails a cast. An unresolved name with no compiler context raises `NullContext`, where the source dereferences a null context.
- Hosts.Host.OnAttributeChanged: only `index.Valid()` is stated for the cache in the `hostcheck` branch; the cache contents it leaves behind are pinned down only through `ServicesIndex.GetServiceByShortName`.
- Dictionary iteration order is the entry order of the sequence. Duplicate keys cannot occur in the source's dictionaries. The model does not exclude them: `Get` returns the first entry with a key, while every iteration (the `services` entries, the dependency lists, the validated dictionary) visits each duplicate in turn.

=== FILE: hosts.dfy ===
/**
 * The host object: its attribute store, its slave-services dictionary and
 * its host-check service reference, and the operations that update them.
 */
module Hosts {
  import opened Values
  import opened Objects
  import opened ServicesCache
  import opened SlaveServices
  import opened ConfigRegistry
  import opened HostGroups

  class Host {
    const name: string
    var isAbstract: bool
    /** The attribute store (`services`, `macros`, `hostcheck`, ...). */
    var attrs: seq<Entry>
    /** `slave_services`: child name -> committed item; None before the first
        reconciliation. */
    var slaveServices: Option<seq<SlaveEntry>>
    /** The weak reference to the host-check service. */
    var hostCheckService: Option<string>

    constructor (name: string, isAbstract: bool, attrs: seq<Entry>)
      ensures this.name == name && this.isAbstract == isAbstract && this.attrs == attrs
      ensures slaveServices == None && hostCheckService == None
    {
      this.name := name;
      this.isAbstract := isAbstract;
      this.attrs := attrs;
      slaveServices := None;
      hostCheckService := None;
    }

    /** The record the read-only operations see. */
    function Snapshot(): HostRec
      reads this
    {
      HostRec(name, attrs, hostCheckService)
    }

    /** Host::UpdateSlaveServices: commit one child service per entry of the
        `services` attribute, then unregister the children of the previous
        reconciliation that are no longer wanted, and store the new
        dictionary. */
    method UpdateSlaveServices(registry: Registry) returns (r: Outcome)
      modifies this, registry
      ensures isAbstract == old(isAbstract) && attrs == old(attrs) && hostCheckService == old(hostCheckService)
      ensures registry.hostItems == old(registry.hostItems)
      ensures (r, ReconcileState(slaveServices, registry.committed, registry.unregistered, registry.live)) ==
        Reconcile(name, isAbstract, registry.hostItems, attrs,
          old(ReconcileState(slaveServices, registry.committed, registry.unregistered, registry.live)))
    {
      if name !in registry.hostItems || isAbstract {
        return Pass;
      }
      ghost var s0 := ReconcileState(slaveServices, registry.committed, registry.unregistered, registry.live);
      var conv := AsDict(Get(attrs, "services"));
      if conv.Err? {
        return Fail(conv.error);
      }
      var descs := conv.value;
      var newServices;
      r, newServices := CommitChildren(name, attrs, descs, registry);
      if r.Fail? {
        return;
      }
      if slaveServices.Some? {
        UnregisterStale(registry, slaveServices.value, newServices);
      } else {
        var none: seq<string> := [];
        assert (set x | x in none) == {};
      }
      slaveServices := Some(newServices);
      assert FirstInvalid(descs).None?;
      ghost var bs := Builders(name, attrs, descs);
      ghost var stale := if s0.slaveServices.Some? then Stale(s0.slaveServices.value, newServices) else [];
      assert registry.live == (s0.live + Names(bs)) - (set x | x in stale);
      assert Reconcile(name, isAbstract, registry.hostItems, attrs, s0).1 ==
        ReconcileState(slaveServices, registry.committed, registry.unregistered, registry.live);
    }

    /** Host::OnRegistrationCompleted: invalidate the group members and
        reconcile the slave services. */
    method OnRegistrationCompleted(registry: Registry, groups: MembersCache) returns (r: Outcome)
      modifies this, registry, groups
      ensures groups.invalidations == old(groups.invalidations) + 1
      ensures isAbstract == old(isAbstract) && attrs == old(attrs) && hostCheckService == old(hostCheckService)
      ensures registry.hostItems == old(registry.hostItems)
      ensures (r, ReconcileState(slaveServices, registry.committed, registry.unregistered, registry.live)) ==
        Reconcile(name, isAbstract, registry.hostItems, attrs,
          old(ReconcileState(slaveServices, registry.committed, registry.unregistered, registry.live)))
    {
      groups.Invalidate();
      r := UpdateSlaveServices(registry);
    }

    /** Host::OnAttributeChanged: `hostgroups` invalidates the group members,
        `services` reconciles the slave services, `hostcheck` re-resolves the
        host-check service by short name; other attributes change nothing. */
    method OnAttributeChanged(attr: string, registry: Registry, groups: MembersCache,
                              index: ServicesIndex, w: World, objs: seq<ServiceRec>) returns (r: Outcome)
      requires index.Valid()
      modifies this, registry, groups, index
      ensures index.Valid()
      ensures isAbstract == old(isAbstract) && attrs == old(attrs)
      ensures registry.hostItems == old(registry.hostItems)
      ensures attr == "hostgroups" ==> groups.invalidations == old(groups.invalidations) + 1 && r == Pass
      ensures attr != "hostgroups" ==> groups.invalidations == old(groups.invalidations)
      ensures attr == "services" ==>
        (r, ReconcileState(slaveServices, registry.committed, registry.unregistered, registry.live)) ==
          Reconcile(name, isAbstract, registry.hostItems, attrs,
            old(ReconcileState(slaveServices, registry.committed, registry.unregistered, registry.live)))
      ensures attr != "services" ==>
        && slaveServices == old(slaveServices) && registry.committed == old(registry.committed)
        && registry.unregistered == old(registry.unregistered) && registry.live == old(registry.live)
      ensures attr == "hostcheck" ==>
        var found := ResolveShortName(old(index.Expected(objs)), w, name, Scalar(GetHostCheck(old(Snapshot()))));
        && (found.Ok? ==> r == Pass && hostCheckService == Some(found.value))
        && (found.Err? ==> r == Fail(found.error) && hostCheckService == old(hostCheckService))
      ensures attr != "hostcheck" ==> hostCheckService == old(hostCheckService)
      ensures attr != "hostcheck" ==> index.valid == old(index.valid) && index.cache == old(index.cache)
      ensures attr != "hostgroups" && attr != "services" && attr != "hostcheck" ==> r == Pass
    {
      r := Pass;
      if attr == "hostgroups" {
        groups.Invalidate();
      } else if attr == "services" {
        r := UpdateSlaveServices(registry);
      } else if attr == "notifications" {
        // Slave notifications are reconciled outside this model.
      } else if attr == "hostcheck" {
        var found := index.GetServiceByShortName(w, name, Scalar(GetHostCheck(Snapshot())), objs);
        if found.Ok? {
          hostCheckService := Some(found.value);
        } else {
          r := Fail(found.error);
        }
      }
    }
  }

  /** The commit loop of Host::UpdateSlaveServices over the entries `descs`
      of the `services` dictionary: stops with its error at the first entry
      that cannot be built, keeping what it already committed; otherwise
      returns the new slave-services dictionary. */
  method CommitChildren(hostName: string, attrs: seq<Entry>, descs: seq<Entry>, registry: Registry)
    returns (r: Outcome, newServices: seq<SlaveEntry>)
    modifies registry
    ensures registry.hostItems == old(registry.hostItems) && registry.unregistered == old(registry.unregistered)
    ensures match FirstInvalid(descs)
        case Some(k) =>
          var bs := Builders(hostName, attrs, descs[..k]);
          && r == Fail(DescriptionError(descs[k]).value)
          && registry.committed == old(registry.committed) + bs
          && registry.live == old(registry.live) + Names(bs)
        case None =>
          var bs := Builders(hostName, attrs, descs);
          && r == Pass && newServices == NewServices(bs)
          && registry.committed == old(registry.committed) + bs
          && registry.live == old(registry.live) + Names(bs)
  {
    newServices := [];
    ghost var bs: seq<Builder> := [];
    for i := 0 to |descs|
      invariant AllValid(descs[..i]) && bs == Builders(hostName, attrs, descs[..i])
      invariant Progress(old(registry.committed), old(registry.live), registry.committed, registry.live, newServices, bs)
      invariant registry.unregistered == old(registry.unregistered) && registry.hostItems == old(registry.hostItems)
    {
      var err := DescriptionError(descs[i]);
      if err.Some? {
        FirstInvalidAt(descs, i);
        return Fail(err.value), newServices;
      }
      var b := ChildBuilder(hostName, attrs, descs[i]).value;
      ghost var c, l := registry.committed, registry.live;
      var item := registry.Commit(b);
      ProgressSnoc(old(registry.committed), old(registry.live), c, l, newServices, bs, b);
      newServices := SlaveServices.Put(newServices, b.name, Some(item));
      AllValidSnoc(descs, i);
      BuildersSnoc(hostName, attrs, descs, i);
      bs := bs + [b];
    }
    assert descs[..|descs|] == descs;
    FirstInvalidNone(descs);
    r := Pass;
  }

  /** The unregister loop of Host::UpdateSlaveServices: every previous child
      whose name the new dictionary lacks is unregistered, in order. */
  method UnregisterStale(registry: Registry, olds: seq<SlaveEntry>, news: seq<SlaveEntry>)
    modifies registry
    ensures registry.unregistered == old(registry.unregistered) + Stale(olds, news)
    ensures registry.live == old(registry.live) - (set x | x in Stale(olds, news))
    ensures registry.committed == old(registry.committed) && registry.hostItems == old(registry.hostItems)
  {
    ghost var stale: seq<string> := [];
    for j := 0 to |olds|
      invariant stale == Stale(olds[..j], news)
      invariant registry.unregistered == old(registry.unregistered) + stale
      invariant registry.live == old(registry.live) - (set x | x in stale)
      invariant registry.committed == old(registry.committed) && registry.hostItems == old(registry.hostItems)
    {
      assert olds[..j + 1][..j] == olds[..j];
      var service := olds[j].item;
      if service.Some? && !HasKey(news, service.value) {
        registry.Unregister(service.value);
        stale := stale + [service.value];
      }
    }
    assert olds[..|olds|] == olds;
  }

  lemma AllValidSnoc(es: seq<Entry>, i: nat)
    requires i < |es| && AllValid(es[..i]) && IsValidDescription(es[i])
    ensures AllValid(es[..i + 1])
  {
    var p := es[..i + 1];
    forall j | 0 <= j < |p| ensures IsValidDescription(p[j]) {
      if j < i {
        assert p[j] == es[..i][j];
      }
    }
  }

  lemma BuildersSnoc(hostName: string, attrs: seq<Entry>, es: seq<Entry>, i: nat)
    requires i < |es| && AllValid(es[..i + 1]) && AllValid(es[..i])
    ensures Builders(hostName, attrs, es[..i + 1]) ==
      Builders(hostName, attrs, es[..i]) + [ChildBuilder(hostName, attrs, es[i]).value]
  {
    var a := Builders(hostName, attrs, es[..i + 1]);
    var pre := Builders(hostName, attrs, es[..i]);
    forall j | 0 <= j < i + 1
      ensures a[j] == (pre + [ChildBuilder(hostName, attrs, es[i]).value])[j]
    {
      if j < i {
        assert es[..i + 1][j] == es[..i][j];
      } else {
        assert es[..i + 1][j] == es[i];
      }
    }
  }

  /** After committing the builders `bs`, starting from `c0` and `l0`. */
  ghost predicate Progress(c0: seq<Builder>, l0: set<string>, c: seq<Builder>, l: set<string>,
                           ns: seq<SlaveEntry>, bs: seq<Builder>) {
    c == c0 + bs && l == l0 + Names(bs) && ns == NewServices(bs)
  }

  lemma ProgressSnoc(c0: seq<Builder>, l0: set<string>, c: seq<Builder>, l: set<string>,
                     ns: seq<SlaveEntry>, bs: seq<Builder>, b: Builder)
    requires Progress(c0, l0, c, l, ns, bs)
    ensures Progress(c0, l0, c + [b], l + {b.name}, SlaveServices.Put(ns, b.name, Some(b.name)), bs + [b])
  {
    assert c0 + bs + [b] == c0 + (bs + [b]);
    NewServicesSnoc(bs, b);
    NamesSnoc(bs, b);
  }

  lemma FirstInvalidNone(es: seq<Entry>)
    requires AllValid(es)
    ensures FirstInvalid(es) == None
  {
  }

  lemma {:induction false} FirstInvalidAt(es: seq<Entry>, i: nat)
    requires i < |es| && AllValid(es[..i]) && !IsValidDescription(es[i])
    ensures FirstInvalid(es) == Some(i)
  {
    if i > 0 {
      assert es[..i][0] == es[0];
      var t := es[1..];
      var p := t[..i - 1];
      assert AllValid(p) by {
        forall j | 0 <= j < |p| ensures IsValidDescription(p[j]) {
          assert p[j] == es[..i][j + 1];
        }
      }
      FirstInvalidAt(t, i - 1);
    }
  }

  lemma NewServicesSnoc(bs: seq<Builder>, b: Builder)
    ensures NewServices(bs + [b]) == SlaveServices.Put(NewServices(bs), b.name, Some(b.name))
  {
    assert (bs + [b])[..|bs|] == bs;
  }

  lemma NamesSnoc(bs: seq<Builder>, b: Builder)
    ensures Names(bs + [b]) == Names(bs) + {b.name}
  {
    var r := bs + [b];
    forall x | x in Names(r) ensures x in Names(bs) + {b.name} {
      var i :| 0 <= i < |r| && r[i].name == x;
      if i < |bs| {
        assert bs[i] == r[i];
      }
    }
    forall x | x in Names(bs) ensures x in Names(r) {
      var i :| 0 <= i < |bs| && bs[i].name == x;
      assert r[i] == bs[i];
    }
    assert r[|bs|] == b;
  }
}

=== FILE: macros.dfy ===
/**
 * The dynamic macros of a host: a string-keyed snapshot of its identity, the
 * state of its host-check service and that service's last check result.
 */
module Macros {
  import opened Values
  import opened Objects
  import opened ServicesCache
  import opened Reachability

  /** The values a macro can take. Latency and execution time are
      floating-point computations on a check result and stay uninterpreted;
      the state type keeps its enumerator rather than its rendered text. */
  datatype MacroValue =
    | Text(s: string)
    | Number(n: int)
    | Raw(v: Value)
    | StateTypeName(t: StateType)
    | Latency(cr: CheckResult)
    | ExecutionTime(cr: CheckResult)

  type Macros = map<string, MacroValue>

  const IdentityKeys: set<string> := {"HOSTNAME", "HOSTDISPLAYNAME", "HOSTALIAS"}
  const StateKeys: set<string> := {"HOSTSTATE", "HOSTSTATEID", "HOSTSTATETYPE", "HOSTATTEMPT", "MAXHOSTATTEMPT"}
  const ResultKeys: set<string> := {"HOSTLATENCY", "HOSTEXECUTIONTIME", "HOSTOUTPUT", "HOSTPERFDATA"}

  /** OK and Warning count as up. */
  predicate IsUp(s: ServiceState) {
    s == StateOK || s == StateWarning
  }

  /** The keys present for a host-check service `hc`. */
  function KeysFor(hc: Option<ServiceRec>): set<string> {
    IdentityKeys
      + (if hc.Some? then StateKeys else {})
      + (if hc.Some? && hc.value.lastCheckResult.Some? then ResultKeys else {})
  }

  /** `m` is the macro snapshot of host `self` with host-check service `hc`
      and reachability verdict `reachable`. */
  ghost predicate MacrosFor(m: Macros, self: HostRec, hc: Option<ServiceRec>, reachable: bool) {
    && m.Keys == KeysFor(hc)
    && m["HOSTNAME"] == Text(self.name)
    && m["HOSTDISPLAYNAME"] == Text(GetDisplayName(self))
    && m["HOSTALIAS"] == Text(self.name)
    && (hc.Some? ==>
      && (!reachable ==> m["HOSTSTATE"] == Text("UNREACHABLE") && m["HOSTSTATEID"] == Number(2))
      && (reachable && IsUp(hc.value.state) ==> m["HOSTSTATE"] == Text("UP") && m["HOSTSTATEID"] == Number(0))
      && (reachable && !IsUp(hc.value.state) ==> m["HOSTSTATE"] == Text("DOWN") && m["HOSTSTATEID"] == Number(1))
      && m["HOSTSTATETYPE"] == StateTypeName(hc.value.stateType)
      && m["HOSTATTEMPT"] == Number(hc.value.currentCheckAttempt)
      && m["MAXHOSTATTEMPT"] == Number(hc.value.maxCheckAttempts))
    && (hc.Some? && hc.value.lastCheckResult.Some? ==>
      var cr := hc.value.lastCheckResult.value;
      && m["HOSTLATENCY"] == Latency(cr)
      && m["HOSTEXECUTIONTIME"] == ExecutionTime(cr)
      && m["HOSTOUTPUT"] == Raw(cr.output)
      && m["HOSTPERFDATA"] == Raw(cr.performanceDataRaw))
  }

  /** The snapshot built by successive `Set` calls, once the host-check
      service and the reachability verdict are known. */
  method BuildMacros(self: HostRec, hc: Option<ServiceRec>, reachable: bool) returns (m: Macros)
    ensures MacrosFor(m, self, hc, reachable)
  {
    m := map[];
    m := m["HOSTNAME" := Text(self.name)];
    m := m["HOSTDISPLAYNAME" := Text(GetDisplayName(self))];
    m := m["HOSTALIAS" := Text(self.name)];
    KeySetsDisjoint();
    var cr: Option<CheckResult> := None;
    if hc.Some? {
      m := SetStateMacros(m, hc.value, reachable);
      cr := hc.value.lastCheckResult;
    }
    if cr.Some? {
      m := SetResultMacros(m, cr.value);
    }
  }

  /** The state block: state name and id, state type and check attempts of
      the host-check service `svc`. */
  method SetStateMacros(m0: Macros, svc: ServiceRec, reachable: bool) returns (m: Macros)
    ensures m.Keys == m0.Keys + StateKeys
    ensures forall k :: k in m0 && k !in StateKeys ==> m[k] == m0[k]
    ensures !reachable ==> m["HOSTSTATE"] == Text("UNREACHABLE") && m["HOSTSTATEID"] == Number(2)
    ensures reachable && IsUp(svc.state) ==> m["HOSTSTATE"] == Text("UP") && m["HOSTSTATEID"] == Number(0)
    ensures reachable && !IsUp(svc.state) ==> m["HOSTSTATE"] == Text("DOWN") && m["HOSTSTATEID"] == Number(1)
    ensures m["HOSTSTATETYPE"] == StateTypeName(svc.stateType)
    ensures m["HOSTATTEMPT"] == Number(svc.currentCheckAttempt)
    ensures m["MAXHOSTATTEMPT"] == Number(svc.maxCheckAttempts)
  {
    var state: string;
    var stateId: int;
    if svc.state == StateOK || svc.state == StateWarning {
      state, stateId := "UP", 0;
    } else {
      state, stateId := "DOWN", 1;
    }
    if !reachable {
      state, stateId := "UNREACHABLE", 2;
    }
    m := m0["HOSTSTATE" := Text(state)];
    m := m["HOSTSTATEID" := Number(stateId)];
    m := m["HOSTSTATETYPE" := StateTypeName(svc.stateType)];
    m := m["HOSTATTEMPT" := Number(svc.currentCheckAttempt)];
    m := m["MAXHOSTATTEMPT" := Number(svc.maxCheckAttempts)];
  }

  /** The check-result block: latency, execution time, output and
      performance data of `cr`. */
  method SetResultMacros(m0: Macros, cr: CheckResult) returns (m: Macros)
    ensures m.Keys == m0.Keys + ResultKeys
    ensures forall k :: k in m0 && k !in ResultKeys ==> m[k] == m0[k]
    ensures m["HOSTLATENCY"] == Latency(cr) && m["HOSTEXECUTIONTIME"] == ExecutionTime(cr)
    ensures m["HOSTOUTPUT"] == Raw(cr.output) && m["HOSTPERFDATA"] == Raw(cr.performanceDataRaw)
  {
    m := m0["HOSTLATENCY" := Latency(cr)];
    m := m["HOSTEXECUTIONTIME" := ExecutionTime(cr)];
    m := m["HOSTOUTPUT" := Raw(cr.output)];
    m := m["HOSTPERFDATA" := Raw(cr.performanceDataRaw)];
  }

  /** No macro name belongs to two of the key groups. */
  lemma KeySetsDisjoint()
    ensures IdentityKeys !! StateKeys && IdentityKeys !! ResultKeys && StateKeys !! ResultKeys
  {
  }

  /** Host::CalculateDynamicMacros: the host-check service is read before the
      reachability verdict is computed; an error raised while computing the
      verdict propagates. */
  method CalculateDynamicMacros(index: ServicesIndex, w: World, selfName: string, objs: seq<ServiceRec>)
    returns (r: Result<Macros>)
    requires selfName in w.hosts && index.Valid()
    modifies index
    ensures index.Valid() && (old(index.valid) ==> index.valid)
    ensures index.valid ==> SameInner(index.cache, old(index.Expected(objs)))
    ensures !index.valid ==> index.cache == old(index.cache)
    ensures var reachable := Reachable(old(index.Expected(objs)), w, selfName);
      && (r.Err? <==> reachable.Err?)
      && (r.Err? ==> r.error == reachable.error)
      && (r.Ok? ==> MacrosFor(r.value, w.hosts[selfName], GetHostCheckService(w, w.hosts[selfName]), reachable.value))
  {
    var self := w.hosts[selfName];
    var hc := GetHostCheckService(w, self);
    var reachable := IsReachable(index, w, selfName, objs);
    if reachable.Err? {
      return Err(reachable.error);
    }
    var m := BuildMacros(self, hc, reachable.value);
    return Ok(m);
  }

  /** The state id and the state name always agree, and the id says exactly
      whether the host is unreachable, up or down. */
  lemma {:induction false} StateIdMeaning(m: Macros, self: HostRec, svc: ServiceRec, reachable: bool)
    requires MacrosFor(m, self, Some(svc), reachable)
    ensures m["HOSTSTATEID"] == Number(2) <==> !reachable
    ensures m["HOSTSTATEID"] == Number(0) <==> reachable && IsUp(svc.state)
    ensures m["HOSTSTATEID"] == Number(1) <==> reachable && !IsUp(svc.state)
    ensures m["HOSTSTATE"] == Text("UNREACHABLE") <==> m["HOSTSTATEID"] == Number(2)
    ensures m["HOSTSTATE"] == Text("UP") <==> m["HOSTSTATEID"] == Number(0)
    ensures m["HOSTSTATE"] == Text("DOWN") <==> m["HOSTSTATEID"] == Number(1)
  {
    if !reachable {
      assert m["HOSTSTATEID"] == Number(2);
    } else if IsUp(svc.state) {
      assert m["HOSTSTATEID"] == Number(0);
    } else {
      assert m["HOSTSTATEID"] == Number(1);
    }
  }

  /** Without a host check only the identity keys are present. */
  lemma NoHostCheckIdentityOnly(m: Macros, self: HostRec, reachable: bool)
    requires MacrosFor(m, self, None, reachable)
    ensures m.Keys == IdentityKeys
    ensures forall k :: k in StateKeys + ResultKeys ==> k !in m
  {
  }

  /** The output keys appear exactly when the host check has a result. */
  lemma {:induction false} OutputKeysIffResult(m: Macros, self: HostRec, hc: Option<ServiceRec>, reachable: bool)
    requires MacrosFor(m, self, hc, reachable)
    ensures "HOSTOUTPUT" in m <==> hc.Some? && hc.value.lastCheckResult.Some?
    ensures "HOSTPERFDATA" in m <==> hc.Some? && hc.value.lastCheckResult.Some?
    ensures "HOSTSTATE" in m <==> hc.Some?
  {
    assert "HOSTOUTPUT" !in IdentityKeys + StateKeys;
    assert "HOSTPERFDATA" !in IdentityKeys + StateKeys;
    assert "HOSTSTATE" !in IdentityKeys + ResultKeys;
    assert "HOSTOUTPUT" in ResultKeys && "HOSTPERFDATA" in ResultKeys && "HOSTSTATE" in StateKeys;
  }

  /** The snapshot is fully determined by the host, its host check and the
      verdict. */
  lemma {:induction false} MacrosDetermined(m1: Macros, m2: Macros, self: HostRec, hc: Option<ServiceRec>, reachable: bool)
    requires MacrosFor(m1, self, hc, reachable) && MacrosFor(m2, self, hc, reachable)
    ensures m1 == m2
  {
    forall k | k in m1.Keys ensures m1[k] == m2[k] {
      assert k in IdentityKeys || k in StateKeys || k in ResultKeys;
    }
  }
}

=== FILE: objects.dfy ===
/**
 * Snapshot of the live object population: hosts and services as read-only
 * records, as the host operations copy them out of the objects they lock.
 */
module Objects {
  import opened Values

  datatype ServiceState = StateOK | StateWarning | StateCritical | StateUnknown

  datatype StateType = StateTypeSoft | StateTypeHard

  /** A completed check result; latency and execution time are derived from
      it by calculations outside this model. */
  datatype CheckResult = CheckResult(output: Value, performanceDataRaw: Value)

  /** A service as seen through its accessors. `name` is its full, unique
      name (the identity a weak reference points to). */
  datatype ServiceRec = ServiceRec(
    name: string,
    hostName: string,
    shortName: string,
    lastCheckResult: Option<CheckResult>,
    stateType: StateType,
    state: ServiceState,
    currentCheckAttempt: int,
    maxCheckAttempts: int)

  /** A host: its name, its attribute store and the weak reference to its
      host-check service (set when the `hostcheck` attribute changes). */
  datatype HostRec = HostRec(name: string, attrs: seq<Entry>, hostCheckService: Option<string>)

  /** The registry's live objects, by name. A weak reference to a service is
      alive exactly when its name is still a key of `services`. */
  datatype World = World(hosts: map<string, HostRec>, services: map<string, ServiceRec>)

  /** Host::GetDisplayName: the configured display name, or the host name
      when none is set. */
  function GetDisplayName(h: HostRec): (r: string)
    ensures r == h.name || Get(h.attrs, "display_name") == Scalar(r)
    ensures Get(h.attrs, "display_name").Scalar? ==> r == Get(h.attrs, "display_name").s
    ensures !Get(h.attrs, "display_name").Scalar? ==> r == h.name
  {
    match Get(h.attrs, "display_name")
      case Scalar(d) => d
      case _ => h.name
  }

  function HostDependencies(h: HostRec): Value { Get(h.attrs, "hostdependencies") }

  function ServiceDependencies(h: HostRec): Value { Get(h.attrs, "servicedependencies") }

  /** Host::GetHostCheck: the `hostcheck` attribute as a string. */
  function GetHostCheck(h: HostRec): string {
    match Get(h.attrs, "hostcheck")
      case Scalar(s) => s
      case _ => ""
  }

  /** Locking the weak host-check reference: the service, if still alive. */
  function GetHostCheckService(w: World, h: HostRec): (r: Option<ServiceRec>)
    ensures r.Some? <==> h.hostCheckService.Some? && h.hostCheckService.value in w.services
    ensures r.Some? ==> r.value == w.services[h.hostCheckService.value]
  {
    match h.hostCheckService
      case Some(id) => if id in w.services then Some(w.services[id]) else None
      case None => None
  }
}

=== FILE: reachability.dfy ===
/**
 * Host::IsReachable and the dependency resolution it rests on: a host is
 * reachable unless one of its immediate service dependencies is in a hard
 * non-OK, non-Warning state, or one of its immediate parent hosts has no
 * host-check service in state OK. Only one hop is evaluated.
 */
module Reachability {
  import opened Values
  import opened Objects
  import opened ServicesCache

  /** A service dependency that does not disqualify: pending (no check
      result), in a soft state, or OK or Warning. */
  predicate ServicePasses(svc: ServiceRec) {
    || svc.lastCheckResult.None?
    || svc.stateType == StateTypeSoft
    || svc.state == StateOK
    || svc.state == StateWarning
  }

  predicate ServiceIdPasses(w: World, id: string) {
    id in w.services && ServicePasses(w.services[id])
  }

  /** A parent host that does not disqualify: its host-check service exists
      and is exactly OK. */
  predicate HostPasses(w: World, h: string) {
    && h in w.hosts
    && var hc := GetHostCheckService(w, w.hosts[h]);
       hc.Some? && hc.value.state == StateOK
  }

  /** Some host-dependency entry of `es` names `n`, a host other than
      `selfName`. */
  predicate NamesParent(es: seq<Entry>, selfName: string, n: string) {
    exists i :: 0 <= i < |es| && n != selfName && ToText(es[i].val) == Ok(n)
  }

  /** A host-dependency value that GetParentHosts accepts: the host's own
      name, or the name of an existing host. */
  predicate HostEntryOk(w: World, selfName: string, v: Value) {
    ToText(v) == Ok(selfName) || (ToText(v).Ok? && ToText(v).value in w.hosts)
  }

  /** The error a rejected host-dependency value raises: its conversion
      error, or Host::GetByName's for an unknown name. */
  function HostEntryError(v: Value): Error {
    match ToText(v)
      case Err(e) => e
      case Ok(h) => NoSuchHost(h)
  }

  /** GetParentHosts over the dependency entries `es`: every entry other than
      the host's own name is resolved to an existing host; the first entry
      that cannot be raises. */
  function ParentHostsOf(w: World, selfName: string, es: seq<Entry>): (r: Result<set<string>>)
    ensures r.Ok? ==> selfName !in r.value && r.value <= w.hosts.Keys
    ensures r.Ok? ==> forall n :: n in r.value <==> NamesParent(es, selfName, n)
    ensures r.Ok? <==> forall i :: 0 <= i < |es| && ToText(es[i].val) != Ok(selfName) ==>
      ToText(es[i].val).Ok? && ToText(es[i].val).value in w.hosts
  {
    if es == [] then Ok({})
    else
      var n := |es| - 1;
      var pre := ParentHostsOf(w, selfName, es[..n]);
      assert forall i :: 0 <= i < n ==> es[..n][i] == es[i];
      if pre.Err? then pre
      else if ToText(es[n].val) == Ok(selfName) then NamesParentSnoc(es, selfName); pre
      else match ToText(es[n].val)
        case Err(e) => Err(e)
        case Ok(h) =>
          if h in w.hosts then
            NamesParentSnoc(es, selfName);
            Ok(pre.value + {h})
          else Err(NoSuchHost(h))
  }

  lemma NamesParentSnoc(es: seq<Entry>, selfName: string)
    requires es != []
    ensures forall m :: NamesParent(es, selfName, m) <==>
      NamesParent(es[..|es| - 1], selfName, m) ||
      (m != selfName && ToText(es[|es| - 1].val) == Ok(m))
  {
    var n := |es| - 1;
    forall m
      ensures NamesParent(es, selfName, m) <==>
        NamesParent(es[..n], selfName, m) || (m != selfName && ToText(es[n].val) == Ok(m))
    {
      if NamesParent(es, selfName, m) {
        var i :| 0 <= i < |es| && m != selfName && ToText(es[i].val) == Ok(m);
        if i < n {
          assert es[..n][i] == es[i];
        }
      }
      if NamesParent(es[..n], selfName, m) {
        var i :| 0 <= i < n && m != selfName && ToText(es[..n][i].val) == Ok(m);
        assert es[i] == es[..n][i];
      }
    }
  }

  /** Host::GetParentHosts. */
  function GetParentHosts(w: World, self: HostRec): (r: Result<set<string>>)
    ensures r.Ok? ==> self.name !in r.value
  {
    ParentHostsOf(w, self.name, Entries(HostDependencies(self)))
  }

  /** GetParentServices over the dependency entries `es`: every entry is
      resolved by GetServiceByShortName on the host; the first failure raises. */
  function ParentServicesOf(c: Content, w: World, selfName: string, es: seq<Entry>): (r: Result<set<string>>)
    ensures r.Ok? ==> r.value <= w.services.Keys
    ensures r.Ok? <==> forall i :: 0 <= i < |es| ==> ResolveShortName(c, w, selfName, es[i].val).Ok?
    ensures r.Ok? ==> forall id :: id in r.value <==>
      exists i :: 0 <= i < |es| && ResolveShortName(c, w, selfName, es[i].val) == Ok(id)
  {
    if es == [] then Ok({})
    else
      var n := |es| - 1;
      var pre := ParentServicesOf(c, w, selfName, es[..n]);
      assert forall i :: 0 <= i < n ==> es[..n][i] == es[i];
      if pre.Err? then pre
      else match ResolveShortName(c, w, selfName, es[n].val)
        case Err(e) => Err(e)
        case Ok(id) =>
          ResolvedIsLive(c, w, selfName, es[n].val);
          Ok(pre.value + {id})
  }

  /** The error GetParentHosts raises is that of the first entry it
      rejects. */
  lemma {:induction false} ParentHostsFirstError(w: World, selfName: string, es: seq<Entry>)
    requires ParentHostsOf(w, selfName, es).Err?
    ensures exists i :: (
      && 0 <= i < |es| && !HostEntryOk(w, selfName, es[i].val)
      && ParentHostsOf(w, selfName, es).error == HostEntryError(es[i].val)
      && forall j :: 0 <= j < i ==> HostEntryOk(w, selfName, es[j].val))
  {
    var n := |es| - 1;
    var pre := ParentHostsOf(w, selfName, es[..n]);
    if pre.Err? {
      ParentHostsFirstError(w, selfName, es[..n]);
      var i :| 0 <= i < n && !HostEntryOk(w, selfName, es[..n][i].val) && pre.error == HostEntryError(es[..n][i].val)
        && forall j :: 0 <= j < i ==> HostEntryOk(w, selfName, es[..n][j].val);
      assert es[..n][i] == es[i];
      assert forall j :: 0 <= j < i ==> es[..n][j] == es[j];
    } else {
      assert forall j :: 0 <= j < n ==> es[..n][j] == es[j];
      assert !HostEntryOk(w, selfName, es[n].val);
    }
  }

  /** The error GetParentServices raises is that of the first entry that
      does not resolve. */
  lemma {:induction false} ParentServicesFirstError(c: Content, w: World, selfName: string, es: seq<Entry>)
    requires ParentServicesOf(c, w, selfName, es).Err?
    ensures exists i :: (
      && 0 <= i < |es| && ResolveShortName(c, w, selfName, es[i].val) == Err(ParentServicesOf(c, w, selfName, es).error)
      && forall j :: 0 <= j < i ==> ResolveShortName(c, w, selfName, es[j].val).Ok?)
  {
    var n := |es| - 1;
    var pre := ParentServicesOf(c, w, selfName, es[..n]);
    if pre.Err? {
      ParentServicesFirstError(c, w, selfName, es[..n]);
      var i :| 0 <= i < n && ResolveShortName(c, w, selfName, es[..n][i].val) == Err(pre.error)
        && forall j :: 0 <= j < i ==> ResolveShortName(c, w, selfName, es[..n][j].val).Ok?;
      assert es[..n][i] == es[i];
      assert forall j :: 0 <= j < i ==> es[..n][j] == es[j];
    } else {
      assert forall j :: 0 <= j < n ==> es[..n][j] == es[j];
    }
  }

  /** Host::GetParentServices, against the index content `c`. */
  function GetParentServices(c: Content, w: World, self: HostRec): Result<set<string>> {
    ParentServicesOf(c, w, self.name, Entries(ServiceDependencies(self)))
  }

  /** The verdict of Host::IsReachable with the index content `c`: service
      dependencies are resolved and checked first, and parent hosts are only
      resolved when no service dependency disqualified. */
  function Reachable(c: Content, w: World, selfName: string): (r: Result<bool>)
    requires selfName in w.hosts
    ensures var ps := GetParentServices(c, w, w.hosts[selfName]);
      ps.Err? ==> r == Err(ps.error)
    ensures var ps := GetParentServices(c, w, w.hosts[selfName]);
      ps.Ok? && (exists id :: id in ps.value && !ServiceIdPasses(w, id)) ==> r == Ok(false)
    ensures r == Ok(true) ==> GetParentHosts(w, w.hosts[selfName]).Ok?
    ensures GetParentServices(c, w, w.hosts[selfName]).Ok? && GetParentHosts(w, w.hosts[selfName]).Ok? ==> r.Ok?
    ensures var ps := GetParentServices(c, w, w.hosts[selfName]);
      var ph := GetParentHosts(w, w.hosts[selfName]);
      ps.Ok? && (forall id :: id in ps.value ==> ServiceIdPasses(w, id)) && ph.Err? ==> r == Err(ph.error)
    ensures var ph := GetParentHosts(w, w.hosts[selfName]);
      GetParentServices(c, w, w.hosts[selfName]).Ok? && ph.Ok? && (exists h :: h in ph.value && !HostPasses(w, h)) ==>
        r == Ok(false)
  {
    var self := w.hosts[selfName];
    match GetParentServices(c, w, self)
      case Err(e) => Err(e)
      case Ok(ss) =>
        if !(forall id :: id in ss ==> ServiceIdPasses(w, id)) then Ok(false)
        else match GetParentHosts(w, self)
          case Err(e) => Err(e)
          case Ok(hs) => Ok(forall h :: h in hs ==> HostPasses(w, h))
  }

  /** The loop over the resolved service dependencies (early exit at the
      first one that disqualifies). */
  method ServicesPass(w: World, parentServices: set<string>) returns (ok: bool)
    requires parentServices <= w.services.Keys
    ensures ok <==> forall id :: id in parentServices ==> ServicePasses(w.services[id])
  {
    var rest := parentServices;
    while rest != {}
      invariant rest <= parentServices
      invariant forall id :: id in parentServices - rest ==> ServicePasses(w.services[id])
      decreases rest
    {
      var id :| id in rest;
      var svc := w.services[id];
      if svc.lastCheckResult.None? {
        rest := rest - {id};
        continue;
      }
      if svc.stateType == StateTypeSoft {
        rest := rest - {id};
        continue;
      }
      if svc.state == StateOK || svc.state == StateWarning {
        rest := rest - {id};
        continue;
      }
      return false;
    }
    return true;
  }

  /** The loop over the parent hosts: each must have a live host-check
      service in state OK. */
  method HostsPass(w: World, parentHosts: set<string>) returns (ok: bool)
    requires parentHosts <= w.hosts.Keys
    ensures ok <==> forall h :: h in parentHosts ==> HostPasses(w, h)
  {
    var rest := parentHosts;
    while rest != {}
      invariant rest <= parentHosts
      invariant forall h :: h in parentHosts - rest ==> HostPasses(w, h)
      decreases rest
    {
      var h :| h in rest;
      var hc := GetHostCheckService(w, w.hosts[h]);
      if hc.Some? && hc.value.state == StateOK {
        rest := rest - {h};
        continue;
      }
      return false;
    }
    return true;
  }

  /** GetParentServices as the source runs it: one cache lookup per entry. */
  method ResolveParentServices(index: ServicesIndex, w: World, self: HostRec, objs: seq<ServiceRec>)
    returns (r: Result<set<string>>)
    requires index.Valid()
    modifies index
    ensures index.Valid() && (old(index.valid) ==> index.valid)
    ensures index.valid ==> SameInner(index.cache, old(index.Expected(objs)))
    ensures !index.valid ==> index.cache == old(index.cache)
    ensures r == GetParentServices(old(index.Expected(objs)), w, self)
  {
    ghost var e := index.Expected(objs);
    var es := Entries(ServiceDependencies(self));
    var parents: set<string> := {};
    for i := 0 to |es|
      invariant index.Valid() && (old(index.valid) ==> index.valid)
      invariant index.valid ==> SameInner(index.cache, e)
      invariant !index.valid ==> index.cache == old(index.cache)
      invariant ParentServicesOf(e, w, self.name, es[..i]) == Ok(parents)
    {
      assert es[..i + 1][..i] == es[..i];
      ghost var now := index.Expected(objs);
      assert SameInner(now, e) by {
        if !index.valid {
          assert now == e;
        }
      }
      var s := index.GetServiceByShortName(w, self.name, es[i].val, objs);
      ResolveSameInner(now, e, w, self.name, es[i].val);
      if s.Err? {
        r := Err(s.error);
        assert ParentServicesOf(e, w, self.name, es[..i + 1]) == r;
        ParentServicesPrefixErr(e, w, self.name, es, i + 1);
        return;
      }
      parents := parents + {s.value};
    }
    assert es[..|es|] == es;
    r := Ok(parents);
  }

  /** A failure on a prefix of the entries is the failure of the whole. */
  lemma {:induction false} ParentServicesPrefixErr(c: Content, w: World, selfName: string, es: seq<Entry>, k: nat)
    requires k <= |es|
    requires ParentServicesOf(c, w, selfName, es[..k]).Err?
    ensures ParentServicesOf(c, w, selfName, es) == ParentServicesOf(c, w, selfName, es[..k])
    decreases |es| - k
  {
    if k == |es| {
      assert es[..k] == es;
    } else {
      assert es[..k + 1][..k] == es[..k];
      ParentServicesPrefixErr(c, w, selfName, es, k + 1);
    }
  }

  /** Host::IsReachable. */
  method IsReachable(index: ServicesIndex, w: World, selfName: string, objs: seq<ServiceRec>)
    returns (r: Result<bool>)
    requires selfName in w.hosts && index.Valid()
    modifies index
    ensures index.Valid() && (old(index.valid) ==> index.valid)
    ensures index.valid ==> SameInner(index.cache, old(index.Expected(objs)))
    ensures !index.valid ==> index.cache == old(index.cache)
    ensures r == Reachable(old(index.Expected(objs)), w, selfName)
  {
    var self := w.hosts[selfName];
    var parentServices := ResolveParentServices(index, w, self, objs);
    if parentServices.Err? {
      return Err(parentServices.error);
    }
    var ok := ServicesPass(w, parentServices.value);
    if !ok {
      return Ok(false);
    }
    var parentHosts := GetParentHosts(w, self);
    if parentHosts.Err? {
      return Err(parentHosts.error);
    }
    ok := HostsPass(w, parentHosts.value);
    return Ok(ok);
  }

  /** The verdict in terms of the host's own dependency entries: reachable
      exactly when every service dependency resolves to a service that does
      not disqualify, and every host dependency other than the host itself
      resolves to a host whose host-check service is exactly OK. */
  lemma ReachableByEntries(c: Content, w: World, selfName: string)
    requires selfName in w.hosts
    ensures var self := w.hosts[selfName];
      var ses := Entries(ServiceDependencies(self));
      var hes := Entries(HostDependencies(self));
      Reachable(c, w, selfName) == Ok(true) <==>
        && (forall i :: 0 <= i < |ses| ==>
              ResolveShortName(c, w, self.name, ses[i].val).Ok? &&
              ServiceIdPasses(w, ResolveShortName(c, w, self.name, ses[i].val).value))
        && (forall i :: 0 <= i < |hes| && ToText(hes[i].val) != Ok(self.name) ==>
              ToText(hes[i].val).Ok? && HostPasses(w, ToText(hes[i].val).value))
  {
    var self := w.hosts[selfName];
    var ses := Entries(ServiceDependencies(self));
    var hes := Entries(HostDependencies(self));
    var ps := ParentServicesOf(c, w, self.name, ses);
    var ph := ParentHostsOf(w, self.name, hes);
    assert ps == GetParentServices(c, w, self);
    assert ph == GetParentHosts(w, self);
    var servicesOk := forall i :: 0 <= i < |ses| ==>
      ResolveShortName(c, w, self.name, ses[i].val).Ok? &&
      ServiceIdPasses(w, ResolveShortName(c, w, self.name, ses[i].val).value);
    var hostsOk := forall i :: 0 <= i < |hes| && ToText(hes[i].val) != Ok(self.name) ==>
      ToText(hes[i].val).Ok? && HostPasses(w, ToText(hes[i].val).value);
    if Reachable(c, w, selfName) == Ok(true) {
      assert ps.Ok? && ph.Ok?;
      forall i | 0 <= i < |ses|
        ensures ResolveShortName(c, w, self.name, ses[i].val).Ok?
        ensures ServiceIdPasses(w, ResolveShortName(c, w, self.name, ses[i].val).value)
      {
        assert ResolveShortName(c, w, self.name, ses[i].val).value in ps.value;
      }
      forall i | 0 <= i < |hes| && ToText(hes[i].val) != Ok(self.name)
        ensures ToText(hes[i].val).Ok? && HostPasses(w, ToText(hes[i].val).value)
      {
        assert ToText(hes[i].val).Ok?;
        var n := ToText(hes[i].val).value;
        assert n != self.name;
        assert NamesParent(hes, self.name, n);
        assert n in ph.value;
      }
    }
    if servicesOk && hostsOk {
      assert ps.Ok?;
      forall id | id in ps.value ensures ServiceIdPasses(w, id) {
        var i :| 0 <= i < |ses| && ResolveShortName(c, w, self.name, ses[i].val) == Ok(id);
      }
      assert ph.Ok?;
      forall n | n in ph.value ensures HostPasses(w, n) {
        assert NamesParent(hes, self.name, n);
        var i :| 0 <= i < |hes| && n != self.name && ToText(hes[i].val) == Ok(n);
      }
    }
  }

  /** A parent host whose host-check service is missing, expired, Warning or
      anything but OK makes the host unreachable: the verdict is false once
      both dependency lists resolve, and otherwise the evaluation fails. */
  lemma ParentNotUpMakesUnreachable(c: Content, w: World, selfName: string, i: int)
    requires selfName in w.hosts
    requires 0 <= i < |Entries(HostDependencies(w.hosts[selfName]))|
    requires var v := Entries(HostDependencies(w.hosts[selfName]))[i].val;
      ToText(v).Ok? && ToText(v).value != w.hosts[selfName].name && !HostPasses(w, ToText(v).value)
    ensures Reachable(c, w, selfName) != Ok(true)
    ensures GetParentServices(c, w, w.hosts[selfName]).Ok? && GetParentHosts(w, w.hosts[selfName]).Ok? ==>
      Reachable(c, w, selfName) == Ok(false)
  {
    ReachableByEntries(c, w, selfName);
  }

  /** A hard failing service dependency makes the host unreachable: the
      verdict is false once the service dependencies resolve, and otherwise
      the evaluation fails. */
  lemma FailingServiceMakesUnreachable(c: Content, w: World, selfName: string, i: int)
    requires selfName in w.hosts
    requires 0 <= i < |Entries(ServiceDependencies(w.hosts[selfName]))|
    requires var r := ResolveShortName(c, w, w.hosts[selfName].name, Entries(ServiceDependencies(w.hosts[selfName]))[i].val);
      r.Ok? && r.value in w.services && !ServicePasses(w.services[r.value])
    ensures Reachable(c, w, selfName) != Ok(true)
    ensures GetParentServices(c, w, w.hosts[selfName]).Ok? ==> Reachable(c, w, selfName) == Ok(false)
  {
    ReachableByEntries(c, w, selfName);
  }

  /** A host without host or service dependencies is reachable. */
  lemma NoDependenciesReachable(c: Content, w: World, selfName: string)
    requires selfName in w.hosts
    requires Entries(ServiceDependencies(w.hosts[selfName])) == []
    requires Entries(HostDependencies(w.hosts[selfName])) == []
    ensures Reachable(c, w, selfName) == Ok(true)
  {
  }

  /** An entry naming the host itself adds no parent host. */
  lemma ParentHostsSelfEntry(w: World, selfName: string, es: seq<Entry>, k: string)
    ensures ParentHostsOf(w, selfName, es + [Entry(k, Scalar(selfName))]) == ParentHostsOf(w, selfName, es)
  {
    assert (es + [Entry(k, Scalar(selfName))])[..|es|] == es;
  }

  /** Host dependencies are resolved against the host names only. */
  lemma {:induction false} ParentHostsSameKeys(w1: World, w2: World, selfName: string, es: seq<Entry>)
    requires w1.hosts.Keys == w2.hosts.Keys
    ensures ParentHostsOf(w1, selfName, es) == ParentHostsOf(w2, selfName, es)
  {
    if es != [] {
      ParentHostsSameKeys(w1, w2, selfName, es[..|es| - 1]);
    }
  }

  /** Lookups see the host names and the services only. */
  lemma {:induction false} ResolveSameKeys(c: Content, w1: World, w2: World, hostName: string, name: Value)
    requires w1.hosts.Keys == w2.hosts.Keys && w1.services == w2.services
    ensures ResolveShortName(c, w1, hostName, name) == ResolveShortName(c, w2, hostName, name)
    decreases name
  {
    match name
      case Dict(es) =>
        var host := ToText(Get(es, "host"));
        if host.Ok? && Find(es, "service").Some? {
          ResolveSameKeys(c, w1, w2, host.value, es[Find(es, "service").value].val);
        }
      case _ =>
  }

  lemma {:induction false} ParentServicesSameKeys(c: Content, w1: World, w2: World, selfName: string, es: seq<Entry>)
    requires w1.hosts.Keys == w2.hosts.Keys && w1.services == w2.services
    ensures ParentServicesOf(c, w1, selfName, es) == ParentServicesOf(c, w2, selfName, es)
  {
    if es != [] {
      ParentServicesSameKeys(c, w1, w2, selfName, es[..|es| - 1]);
      ResolveSameKeys(c, w1, w2, selfName, es[|es| - 1].val);
    }
  }

  /** Host `h` with one more host-dependency entry, under key `k`, naming
      the host itself. */
  function WithSelfDependency(h: HostRec, k: string): HostRec {
    var deps := Entries(HostDependencies(h)) + [Entry(k, Scalar(h.name))];
    h.(attrs := [Entry("hostdependencies", Dict(deps))] + h.attrs)
  }

  lemma WithSelfDependencyAttrs(h: HostRec, k: string)
    ensures ServiceDependencies(WithSelfDependency(h, k)) == ServiceDependencies(h)
    ensures Entries(HostDependencies(WithSelfDependency(h, k))) == Entries(HostDependencies(h)) + [Entry(k, Scalar(h.name))]
  {
    var a := WithSelfDependency(h, k).attrs;
    assert a[0].key == "hostdependencies";
    assert "hostdependencies"[0] != "servicedependencies"[0];
    assert a[1..] == h.attrs;
  }

  /** The verdict depends only on the resolved dependencies and on which
      services and hosts pass. */
  lemma ReachableCongruence(c: Content, w1: World, w2: World, selfName: string)
    requires selfName in w1.hosts && selfName in w2.hosts
    requires GetParentServices(c, w1, w1.hosts[selfName]) == GetParentServices(c, w2, w2.hosts[selfName])
    requires GetParentHosts(w1, w1.hosts[selfName]) == GetParentHosts(w2, w2.hosts[selfName])
    requires forall x :: HostPasses(w1, x) == HostPasses(w2, x)
    requires forall id :: ServiceIdPasses(w1, id) == ServiceIdPasses(w2, id)
    ensures Reachable(c, w1, selfName) == Reachable(c, w2, selfName)
  {
  }

  /** Listing the host itself as a host dependency changes no verdict: its
      own name is skipped. */
  lemma SelfDependencyIgnored(c: Content, w: World, selfName: string, k: string)
    requires selfName in w.hosts
    ensures var w2 := w.(hosts := w.hosts[selfName := WithSelfDependency(w.hosts[selfName], k)]);
      Reachable(c, w2, selfName) == Reachable(c, w, selfName)
  {
    var h := w.hosts[selfName];
    var h2 := WithSelfDependency(h, k);
    var w2 := w.(hosts := w.hosts[selfName := h2]);
    assert w2.hosts.Keys == w.hosts.Keys;
    WithSelfDependencyAttrs(h, k);
    ParentServicesSameKeys(c, w2, w, h.name, Entries(ServiceDependencies(h)));
    ParentHostsSelfEntry(w2, h.name, Entries(HostDependencies(h)), k);
    ParentHostsSameKeys(w2, w, h.name, Entries(HostDependencies(h)));
    forall x ensures HostPasses(w2, x) == HostPasses(w, x) {
      if x in w.hosts {
        assert w2.hosts[x].hostCheckService == w.hosts[x].hostCheckService;
      }
    }
    ReachableCongruence(c, w2, w, selfName);
  }

  function PingWorld(state: ServiceState): World {
    var deps := Dict([Entry("ping", Scalar("A-ping"))]);
    var a := HostRec("A", [Entry("servicedependencies", deps)], None);
    var ping := ServiceRec("A-ping", "A", "ping", Some(CheckResult(Scalar("out"), Empty)),
                           StateTypeHard, state, 1, 3);
    World(map["A" := a], map["A-ping" := ping])
  }

  /** Host A depends on service A-ping: a hard Critical result makes A
      unreachable. */
  lemma PingCriticalUnreachable()
    ensures Reachable(map[], PingWorld(StateCritical), "A") == Ok(false)
  {
    PingResolves(StateCritical);
    assert !ServiceIdPasses(PingWorld(StateCritical), "A-ping");
  }

  /** After a hard OK result of A-ping, A is reachable again. */
  lemma PingOkReachable()
    ensures Reachable(map[], PingWorld(StateOK), "A") == Ok(true)
  {
    PingResolves(StateOK);
    var good := PingWorld(StateOK);
    assert ServiceIdPasses(good, "A-ping");
    assert forall id :: id in {"A-ping"} ==> ServiceIdPasses(good, id);
  }

  lemma PingResolves(state: ServiceState)
    ensures GetParentServices(map[], PingWorld(state), PingWorld(state).hosts["A"]) == Ok({"A-ping"})
    ensures GetParentHosts(PingWorld(state), PingWorld(state).hosts["A"]) == Ok({})
  {
    var w := PingWorld(state);
    var es := [Entry("ping", Scalar("A-ping"))];
    var attrs := [Entry("servicedependencies", Dict(es))];
    assert w.hosts["A"].attrs == attrs;
    assert Get(attrs, "servicedependencies") == Dict(es);
    assert Get(attrs, "hostdependencies") == Empty;
    assert es[..0] == [];
    assert ResolveShortName(map[], w, "A", Scalar("A-ping")) == Ok("A-ping");
    assert ParentServicesOf(map[], w, "A", es[..0]) == Ok({});
    var pre := ParentServicesOf(map[], w, "A", es[..|es| - 1]);
    assert pre == Ok({});
    assert ResolveShortName(map[], w, "A", es[|es| - 1].val) == Ok("A-ping");
    assert pre.value + {"A-ping"} == {"A-ping"};
    assert ParentServicesOf(map[], w, "A", es) == Ok({"A-ping"});
  }
}

=== FILE: registry.dfy ===
/**
 * The parts of the configuration registry the host operations use, kept
 * abstract: which hosts own a configuration item, which service items are
 * live, a log of committed builders and a log of unregistrations.
 */
module ConfigRegistry {
  import opened SlaveServices

  class Registry {
    /** Host names for which ConfigItem::GetObject("Host", name) finds an item. */
    var hostItems: set<string>
    /** Names of the service items committed and not unregistered since. */
    var live: set<string>
    /** Every builder compiled and committed, in order. */
    var committed: seq<Builder>
    /** Every item unregistered, in order. */
    var unregistered: seq<string>

    constructor (hostItems: set<string>)
      ensures this.hostItems == hostItems && live == {} && committed == [] && unregistered == []
    {
      this.hostItems := hostItems;
      live := {};
      committed := [];
      unregistered := [];
    }

    /** ConfigItemBuilder::Compile followed by ConfigItem::Commit: the item
        takes the builder's name. */
    method Commit(b: Builder) returns (item: string)
      modifies this
      ensures item == b.name
      ensures committed == old(committed) + [b] && live == old(live) + {b.name}
      ensures hostItems == old(hostItems) && unregistered == old(unregistered)
    {
      committed := committed + [b];
      live := live + {b.name};
      item := b.name;
    }

    /** ConfigItem::Unregister. */
    method Unregister(item: string)
      modifies this
      ensures unregistered == old(unregistered) + [item] && live == old(live) - {item}
      ensures hostItems == old(hostItems) && committed == old(committed)
    {
      unregistered := unregistered + [item];
      live := live - {item};
    }
  }
}

/**
 * The host-group members cache, of which only its invalidation is used here.
 */
module HostGroups {
  class MembersCache {
    /** How often HostGroup::InvalidateMembersCache has been called. */
    var invalidations: nat

    constructor ()
      ensures invalidations == 0
    {
      invalidations := 0;
    }

    method Invalidate()
      modifies this
      ensures invalidations == old(invalidations) + 1
    {
      invalidations := invalidations + 1;
    }
  }
}

=== FILE: scenarios.dfy ===
/**
 * A worked reconciliation: host B first declares an inline `http` service and
 * a scalar `ssh` entry naming the template `ssh-template`; then the `ssh`
 * entry is removed.
 */
module Scenarios {
  import opened Values
  import opened SlaveServices

  const Http: Entry := Entry("http", Dict([Entry("check_interval", Scalar("60"))]))
  const Ssh: Entry := Entry("ssh", Scalar("ssh-template"))

  function HostAttrs(services: seq<Entry>): seq<Entry> {
    [Entry("services", Dict(services))]
  }

  lemma ServicesOf(services: seq<Entry>)
    ensures ServiceDescs(HostAttrs(services)) == Ok(services)
  {
    assert HostAttrs(services)[0].key == "services";
  }

  /** A scalar entry is named after its value, a dictionary entry after its
      key, and each takes the matching parent, whatever the host's own
      attributes. */
  lemma {:induction false} ExampleChildren(attrs: seq<Entry>)
    ensures ChildBuilder("B", attrs, Http).value.name == "B-http"
    ensures ChildBuilder("B", attrs, Http).value.parents == ["http"]
    ensures ChildBuilder("B", attrs, Ssh).value.name == "B-ssh-template"
    ensures ChildBuilder("B", attrs, Ssh).value.parents == ["ssh-template"]
  {
    assert Get(Http.val.entries, "templates") == Empty by {
      assert Find(Http.val.entries, "templates").None?;
    }
    assert ChildParents(Http) == ["http"];
    assert ChildParents(Ssh) == ["ssh-template"];
    assert "B" + "-" + "http" == "B-http";
    assert "B" + "-" + "ssh-template" == "B-ssh-template";
  }

  /** A `templates` value that is itself a dictionary does not convert to a
      template name, so the entry raises. */
  lemma DictionaryTemplateRaises()
    ensures DescriptionError(Entry("web", Dict([Entry("templates", Dict([Entry("0", Dict([]))]))]))) ==
      Some(InvalidConversion)
  {
    var ts := [Entry("0", Dict([]))];
    var es := [Entry("templates", Dict(ts))];
    assert Get(es, "templates") == Dict(ts);
    assert ToText(ts[0].val).Err?;
  }

  /** The first reconciliation registers B-http and B-ssh-template. */
  lemma {:induction false} ExampleFirstReconcile(s0: ReconcileState)
    ensures var (o, t) := Reconcile("B", false, {"B"}, HostAttrs([Http, Ssh]), s0);
      && o == Pass && t.slaveServices.Some?
      && (forall x :: HasKey(t.slaveServices.value, x) <==> x == "B-http" || x == "B-ssh-template")
      && WellFormed(t.slaveServices.value)
  {
    var descs := [Http, Ssh];
    ServicesOf(descs);
    assert "B" + "-" + "http" == "B-http";
    assert "B" + "-" + "ssh-template" == "B-ssh-template";
    assert ChildName("B", descs[0]) == "B-http" && ChildName("B", descs[1]) == "B-ssh-template";
    ReconcileSuccess("B", HostAttrs(descs), {"B"}, s0);
    var d := Reconcile("B", false, {"B"}, HostAttrs(descs), s0).1.slaveServices.value;
    forall x | HasKey(d, x) ensures x == "B-http" || x == "B-ssh-template" {
      var i :| 0 <= i < |descs| && x == ChildName("B", descs[i]);
    }
    assert HasKey(d, ChildName("B", descs[0])) && HasKey(d, ChildName("B", descs[1]));
  }

  /** Once `ssh` is dropped, the next reconciliation keeps only B-http. */
  lemma {:induction false} ExampleSecondReconcile(t1: ReconcileState)
    ensures var (o, t2) := Reconcile("B", false, {"B"}, HostAttrs([Http]), t1);
      && o == Pass && t2.slaveServices.Some?
      && (forall x :: HasKey(t2.slaveServices.value, x) <==> x == "B-http")
  {
    var descs := [Http];
    ServicesOf(descs);
    assert "B" + "-" + "http" == "B-http";
    assert ChildName("B", descs[0]) == "B-http";
    ReconcileSuccess("B", HostAttrs(descs), {"B"}, t1);
  }

  /** That reconciliation unregisters B-ssh-template and nothing else. */
  lemma {:induction false} ExampleSecondUnregisters(t1: ReconcileState)
    requires t1.slaveServices.Some?
    requires forall x :: HasKey(t1.slaveServices.value, x) <==> x == "B-http" || x == "B-ssh-template"
    requires WellFormed(t1.slaveServices.value)
    ensures var t2 := Reconcile("B", false, {"B"}, HostAttrs([Http]), t1).1;
      forall x :: x in t2.unregistered[|t1.unregistered|..] <==> x == "B-ssh-template"
  {
    var descs := [Http];
    ServicesOf(descs);
    ExampleSecondReconcile(t1);
    ReconcileSuccessUnregisters("B", HostAttrs(descs), {"B"}, t1);
    var olds := t1.slaveServices.value;
    var t2 := Reconcile("B", false, {"B"}, HostAttrs(descs), t1).1;
    var added := t2.unregistered[|t1.unregistered|..];
    forall x ensures x in added <==> x == "B-ssh-template" {
      if x in added {
        var j :| 0 <= j < |olds| && olds[j].item == Some(x);
        assert HasKey(olds, olds[j].key);
      }
      if x == "B-ssh-template" {
        assert HasKey(olds, x);
        var j :| 0 <= j < |olds| && olds[j].key == x;
        assert olds[j].item == Some(x);
      }
    }
  }
}

=== FILE: services_cache.dfy ===
/**
 * The services-by-host index: host name -> short name -> weak reference to a
 * service, with a validity flag. It is rebuilt from a full scan of the
 * services on first use after an invalidation, and short-name lookups fall
 * back to the global registry when the index has no entry.
 */
module ServicesCache {
  import opened Values
  import opened Objects

  /** host name -> short name -> service name (the weak reference). */
  type Content = map<string, map<string, string>>

  /** The per-host map; a host with no entry reads as an empty map. */
  function Inner(c: Content, h: string): map<string, string> {
    if h in c then c[h] else map[]
  }

  /** Two contents that answer every lookup alike. */
  ghost predicate SameInner(a: Content, b: Content) {
    forall h :: Inner(a, h) == Inner(b, h)
  }

  function Put(c: Content, h: string, s: string, id: string): Content {
    c[h := Inner(c, h)[s := id]]
  }

  predicate Matches(svc: ServiceRec, h: string, s: string) {
    svc.hostName == h && svc.shortName == s
  }

  /** `objs[k]` is the last enumerated service of host `h` with short name `s`. */
  ghost predicate LastMatchAt(objs: seq<ServiceRec>, k: int, h: string, s: string) {
    && 0 <= k < |objs|
    && Matches(objs[k], h, s)
    && forall j :: k < j < |objs| ==> !Matches(objs[j], h, s)
  }

  /** The content a rebuild produces from the enumeration `objs` of all
      services: each service is stored under its host and short name, and a
      later service with the same host and short name overwrites an earlier. */
  function Index(objs: seq<ServiceRec>): (r: Content)
    ensures forall h :: h in r ==> r[h] != map[]
  {
    if objs == [] then map[]
    else
      var last := objs[|objs| - 1];
      var r := Put(Index(objs[..|objs| - 1]), last.hostName, last.shortName, last.name);
      assert last.shortName in r[last.hostName];
      r
  }

  /** The last enumerated service with a given host and short name is the one
      the index holds. */
  lemma {:induction false} IndexLastWins(objs: seq<ServiceRec>, k: int)
    requires 0 <= k < |objs|
    requires LastMatchAt(objs, k, objs[k].hostName, objs[k].shortName)
    ensures objs[k].shortName in Inner(Index(objs), objs[k].hostName)
    ensures Inner(Index(objs), objs[k].hostName)[objs[k].shortName] == objs[k].name
  {
    var n := |objs| - 1;
    if k < n {
      assert !Matches(objs[n], objs[k].hostName, objs[k].shortName);
      var pre := objs[..n];
      assert pre[k] == objs[k];
      IndexLastWins(pre, k);
    }
  }

  /** Everything the index holds comes from the last enumerated service with
      that host and short name. */
  lemma {:induction false} IndexOnlyEnumerated(objs: seq<ServiceRec>, h: string, s: string)
    requires s in Inner(Index(objs), h)
    ensures exists k :: LastMatchAt(objs, k, h, s) && objs[k].name == Inner(Index(objs), h)[s]
  {
    var n := |objs| - 1;
    if Matches(objs[n], h, s) {
      assert LastMatchAt(objs, n, h, s);
    } else {
      var pre := objs[..n];
      assert Inner(Index(objs), h) == Inner(Index(pre), h) || objs[n].hostName != h || objs[n].shortName != s;
      assert s in Inner(Index(pre), h);
      IndexOnlyEnumerated(pre, h, s);
      var k :| LastMatchAt(pre, k, h, s) && pre[k].name == Inner(Index(pre), h)[s];
      assert LastMatchAt(objs, k, h, s);
    }
  }

  /** GetServiceByShortName: resolve a service reference of host `hostName`
      against the index content `c`. A scalar is a short name looked up in the
      host's part of the index, falling back to the service's global name; a
      dictionary `{host, service}` delegates to the named host; anything else
      is an error. */
  function ResolveShortName(c: Content, w: World, hostName: string, name: Value): (r: Result<string>)
    ensures name.Scalar? && r.Ok? ==>
      r.value == if name.s in Inner(c, hostName) then Inner(c, hostName)[name.s] else name.s
    ensures name.Scalar? && name.s !in Inner(c, hostName) ==> (r.Ok? <==> name.s in w.services)
    ensures name.Scalar? && name.s in Inner(c, hostName) ==>
      var id := Inner(c, hostName)[name.s];
      r == if id in w.services then Ok(id) else Err(ExpiredReference(id))
    ensures name.Scalar? && name.s !in Inner(c, hostName) ==>
      r == if name.s in w.services then Ok(name.s) else Err(NoSuchService(name.s))
    ensures name.Dict? ==>
      var host := ToText(Get(name.entries, "host"));
      && (host.Err? ==> r == Err(host.error))
      && (host.Ok? && host.value !in w.hosts ==> r == Err(NoSuchHost(host.value)))
      && (host.Ok? && host.value in w.hosts && !Contains(name.entries, "service") ==> r == Err(InvalidNamePair))
    ensures !name.Scalar? && !name.Dict? ==> r == Err(InvalidNamePair)
    decreases name
  {
    match name
      case Scalar(s) =>
        var inner := Inner(c, hostName);
        if s in inner then
          if inner[s] in w.services then Ok(inner[s]) else Err(ExpiredReference(inner[s]))
        else if s in w.services then Ok(s)
        else Err(NoSuchService(s))
      case Dict(es) =>
        (match ToText(Get(es, "host"))
          case Err(e) => Err(e)
          case Ok(h) =>
            if h !in w.hosts then Err(NoSuchHost(h))
            else if Find(es, "service").None? then Err(InvalidNamePair)
            else ResolveShortName(c, w, h, es[Find(es, "service").value].val))
      case _ => Err(InvalidNamePair)
  }

  /** A `{host, service}` pair that names a known host and has a `service`
      field is looked up as that field's value under that host. */
  lemma ResolveDelegates(c: Content, w: World, hostName: string, es: seq<Entry>)
    requires ToText(Get(es, "host")).Ok? && ToText(Get(es, "host")).value in w.hosts
    requires Contains(es, "service")
    ensures ResolveShortName(c, w, hostName, Dict(es)) ==
      ResolveShortName(c, w, ToText(Get(es, "host")).value, Get(es, "service"))
  {
  }

  /** When every enumerated service is live, a fresh rebuild holds no
      expired reference. */
  lemma FreshIndexLive(objs: seq<ServiceRec>, w: World, h: string, s: string)
    requires forall k :: 0 <= k < |objs| ==> objs[k].name in w.services
    requires s in Inner(Index(objs), h)
    ensures Inner(Index(objs), h)[s] in w.services
    ensures ResolveShortName(Index(objs), w, h, Scalar(s)) == Ok(Inner(Index(objs), h)[s])
  {
    IndexOnlyEnumerated(objs, h, s);
  }

  /** A successful resolution always names a live service, and one the index
      or the registry supplied. */
  lemma {:induction false} ResolvedIsLive(c: Content, w: World, hostName: string, name: Value)
    requires ResolveShortName(c, w, hostName, name).Ok?
    ensures ResolveShortName(c, w, hostName, name).value in w.services
    decreases name
  {
    match name
      case Scalar(s) =>
      case Dict(es) =>
        var h := ToText(Get(es, "host")).value;
        var i := Find(es, "service").value;
        ResolvedIsLive(c, w, h, es[i].val);
      case _ =>
  }

  /** Lookups only see the per-host maps. */
  lemma {:induction false} ResolveSameInner(a: Content, b: Content, w: World, hostName: string, name: Value)
    requires SameInner(a, b)
    ensures ResolveShortName(a, w, hostName, name) == ResolveShortName(b, w, hostName, name)
    decreases name
  {
    match name
      case Scalar(s) =>
        assert Inner(a, hostName) == Inner(b, hostName);
      case Dict(es) =>
        var host := ToText(Get(es, "host"));
        if host.Ok? && Find(es, "service").Some? {
          ResolveSameInner(a, b, w, host.value, es[Find(es, "service").value].val);
        }
      case _ =>
  }

  /** The static services cache and its validity flag. */
  class ServicesIndex {
    var valid: bool
    var cache: Content

    /** An invalid cache holds nothing. */
    ghost predicate Valid()
      reads this
    {
      !valid ==> cache == map[]
    }

    /** What lookups see: the cache when valid, else the rebuild from `objs`. */
    ghost function Expected(objs: seq<ServiceRec>): Content
      reads this
    {
      if valid then cache else Index(objs)
    }

    /** The cache starts out valid and empty. */
    constructor ()
      ensures Valid() && valid && cache == map[]
    {
      valid := true;
      cache := map[];
    }

    /** InvalidateServicesCache. */
    method Invalidate()
      modifies this
      ensures Valid() && !valid && cache == map[]
    {
      valid := false;
      cache := map[];
    }

    /** ValidateServicesCache: a no-op on a valid cache, else a rebuild from
        the enumeration `objs` of all services. */
    method Validate(objs: seq<ServiceRec>)
      requires Valid()
      modifies this
      ensures Valid() && valid
      ensures old(valid) ==> cache == old(cache)
      ensures !old(valid) ==> cache == Index(objs)
      ensures cache == old(Expected(objs))
    {
      if valid {
        return;
      }
      cache := map[];
      for i := 0 to |objs|
        invariant cache == Index(objs[..i])
      {
        var svc := objs[i];
        assert objs[..i + 1][..i] == objs[..i];
        cache := Put(cache, svc.hostName, svc.shortName, svc.name);
      }
      assert objs[..|objs|] == objs;
      valid := true;
    }

    /** GetServices: the live services indexed under host `hostName`. The
        lookup leaves an (empty) entry for that host behind. */
    method GetServices(w: World, hostName: string, objs: seq<ServiceRec>) returns (services: set<string>)
      requires Valid()
      modifies this
      ensures Valid() && valid
      ensures cache == old(Expected(objs))[hostName := Inner(old(Expected(objs)), hostName)]
      ensures forall id :: id in services <==>
        id in w.services && exists s :: s in Inner(old(Expected(objs)), hostName) && Inner(old(Expected(objs)), hostName)[s] == id
    {
      Validate(objs);
      var inner := Inner(cache, hostName);
      cache := cache[hostName := inner];
      services := {};
      var rest := inner.Keys;
      while rest != {}
        invariant rest <= inner.Keys
        invariant forall id :: id in services <==>
          id in w.services && exists s :: s in inner.Keys - rest && inner[s] == id
        decreases rest
      {
        var s :| s in rest;
        if inner[s] in w.services {
          services := services + {inner[s]};
        }
        rest := rest - {s};
      }
    }

    /** GetServiceByShortName, against the cache. */
    method GetServiceByShortName(w: World, hostName: string, name: Value, objs: seq<ServiceRec>)
      returns (r: Result<string>)
      requires Valid()
      modifies this
      ensures Valid() && (old(valid) ==> valid)
      ensures valid ==> SameInner(cache, old(Expected(objs)))
      ensures !valid ==> cache == old(cache)
      ensures r == ResolveShortName(old(Expected(objs)), w, hostName, name)
      decreases name
    {
      match name
      case Scalar(s) =>
        Validate(objs);
        var inner := Inner(cache, hostName);
        cache := cache[hostName := inner];
        if s in inner {
          var id := inner[s];
          if id in w.services {
            r := Ok(id);
          } else {
            r := Err(ExpiredReference(id));
          }
          return;
        }
        if s in w.services {
          r := Ok(s);
        } else {
          r := Err(NoSuchService(s));
        }
      case Dict(es) =>
        var host := ToText(Get(es, "host"));
        if host.Err? {
          r := Err(host.error);
          return;
        }
        var h := host.value;
        if h !in w.hosts {
          r := Err(NoSuchHost(h));
          return;
        }
        var f := Find(es, "service");
        if f.None? {
          r := Err(InvalidNamePair);
          return;
        }
        r := GetServiceByShortName(w, h, es[f.value].val, objs);
      case _ =>
        r := Err(InvalidNamePair);
    }
  }
}

=== FILE: slave_services.dfy ===
/**
 * The rules by which a host's `services` dictionary becomes builders for its
 * child ("slave") services, and the dictionaries the reconciler diffs.
 */
module SlaveServices {
  import opened Values

  /** OperatorSet replaces an attribute, OperatorPlus merges into it. */
  datatype Operator = OperatorSet | OperatorPlus

  datatype Expression = Expression(key: string, op: Operator, value: Value)

  /** A configuration item builder: type, name, parent templates in order and
      expressions in order. */
  datatype Builder = Builder(typeName: string, name: string, parents: seq<string>, exprs: seq<Expression>)

  /** The attributes every description passes on, with their operators. */
  const ServiceAttrs: seq<(string, Operator)> := [
    ("macros", OperatorPlus),
    ("check_interval", OperatorSet),
    ("retry_interval", OperatorSet),
    ("servicegroups", OperatorPlus),
    ("checkers", OperatorSet),
    ("short_name", OperatorSet)
  ]

  /** The dependency lists, passed on only from inline service descriptions. */
  const DependencyAttrs: seq<(string, Operator)> := [
    ("servicedependencies", OperatorPlus),
    ("hostdependencies", OperatorPlus)
  ]

  /** An expression for each listed attribute that is non-empty in `desc`. */
  function CopyKeys(table: seq<(string, Operator)>, desc: seq<Entry>): (r: seq<Expression>)
    ensures forall x :: x in r ==> (x.key, x.op) in table && x.value == Get(desc, x.key) && x.value != Empty
    ensures forall i :: 0 <= i < |table| && Get(desc, table[i].0) != Empty ==>
      Expression(table[i].0, table[i].1, Get(desc, table[i].0)) in r
  {
    if table == [] then []
    else
      var rest := CopyKeys(table[1..], desc);
      assert forall i :: 1 <= i < |table| ==> table[1..][i - 1] == table[i];
      var v := Get(desc, table[0].0);
      if v.Empty? then rest else [Expression(table[0].0, table[0].1, v)] + rest
  }

  /** CopyServiceAttributes<copyServiceAttrs>: the expressions a description
      contributes to a child builder. */
  function CopyServiceAttributes(copyServiceAttrs: bool, desc: seq<Entry>): (r: seq<Expression>)
    ensures forall x :: x in r ==> x.value != Empty && x.value == Get(desc, x.key)
    ensures forall x :: x in r ==> (x.key, x.op) in ServiceAttrs || (copyServiceAttrs && (x.key, x.op) in DependencyAttrs)
    ensures forall i :: 0 <= i < |ServiceAttrs| && Get(desc, ServiceAttrs[i].0) != Empty ==>
      Expression(ServiceAttrs[i].0, ServiceAttrs[i].1, Get(desc, ServiceAttrs[i].0)) in r
    ensures copyServiceAttrs ==> forall i :: 0 <= i < |DependencyAttrs| && Get(desc, DependencyAttrs[i].0) != Empty ==>
      Expression(DependencyAttrs[i].0, DependencyAttrs[i].1, Get(desc, DependencyAttrs[i].0)) in r
    ensures !copyServiceAttrs ==> forall x :: x in r ==> x.key != "servicedependencies" && x.key != "hostdependencies"
  {
    var table := if copyServiceAttrs then ServiceAttrs + DependencyAttrs else ServiceAttrs;
    assert forall i :: 0 <= i < |ServiceAttrs| ==> table[i] == ServiceAttrs[i];
    assert copyServiceAttrs ==> forall i :: 0 <= i < |DependencyAttrs| ==> table[|ServiceAttrs| + i] == DependencyAttrs[i];
    CopyKeys(table, desc)
  }

  /** The names in a `templates` dictionary, in order, each value converted
      to a string; a value that does not convert raises. */
  function TemplateNames(ts: seq<Entry>): (r: Result<seq<string>>)
    ensures r.Ok? <==> forall i :: 0 <= i < |ts| ==> ToText(ts[i].val).Ok?
    ensures r.Ok? ==> |r.value| == |ts| && forall i :: 0 <= i < |ts| ==> r.value[i] == ToText(ts[i].val).value
    ensures r.Err? ==> r.error == InvalidConversion
  {
    if ts == [] then Ok([])
    else
      assert forall i :: 1 <= i < |ts| ==> ts[1..][i - 1] == ts[i];
      match ToText(ts[0].val)
        case Err(err) => Err(err)
        case Ok(t) =>
          (match TemplateNames(ts[1..])
            case Err(err) => Err(err)
            case Ok(rest) => Ok([t] + rest))
  }

  /** The error a `services` entry raises while its builder is made: none
      for a scalar, nor for a dictionary whose `templates` value converts to
      a dictionary pointer whose values all convert to strings; a conversion
      error for a dictionary whose `templates` value, or one of its values,
      does not convert; the invalid-description error for an entry that is
      neither scalar nor dictionary. */
  function DescriptionError(e: Entry): (r: Option<Error>)
    ensures r.None? <==>
      || e.val.Scalar?
      || (e.val.Dict? && AsDict(Get(e.val.entries, "templates")).Ok? &&
          TemplateNames(AsDict(Get(e.val.entries, "templates")).value).Ok?)
    ensures !e.val.Scalar? && !e.val.Dict? ==> r == Some(InvalidServiceDescription)
    ensures e.val.Dict? && AsDict(Get(e.val.entries, "templates")).Err? ==> r == Some(InvalidConversion)
    ensures e.val.Dict? ==>
      var ts := Get(e.val.entries, "templates");
      (ts.Dict? && exists i :: 0 <= i < |ts.entries| && ToText(ts.entries[i].val).Err?) ==> r == Some(InvalidConversion)
  {
    match e.val
      case Scalar(_) => None
      case Dict(es) =>
        (match AsDict(Get(es, "templates"))
          case Ok(ts) => if TemplateNames(ts).Ok? then None else Some(InvalidConversion)
          case Err(err) => Some(err))
      case _ => Some(InvalidServiceDescription)
  }

  /** Whether a child can be built from a `services` entry. */
  predicate IsValidDescription(e: Entry) {
    DescriptionError(e).None?
  }

  /** The service name part: the scalar itself, else the entry's key. */
  function SvcName(e: Entry): string {
    if e.val.Scalar? then e.val.s else e.key
  }

  /** The child's name: host name, "-", service name part. */
  function ChildName(hostName: string, e: Entry): string {
    hostName + "-" + SvcName(e)
  }

  /** The parent templates of a child: the scalar itself; else the entries of
      a `templates` dictionary; else (no `templates`) the key. */
  function ChildParents(e: Entry): seq<string>
    requires IsValidDescription(e)
  {
    if e.val.Scalar? then [e.val.s]
    else if Get(e.val.entries, "templates").Dict? then
      TemplateNames(Get(e.val.entries, "templates").entries).value
    else [e.key]
  }

  /** The builder UpdateSlaveServices makes for one `services` entry of host
      `hostName`, whose own attributes are `hostAttrs`; None for an entry
      that raises (see DescriptionError). */
  function ChildBuilder(hostName: string, hostAttrs: seq<Entry>, e: Entry): (r: Option<Builder>)
    ensures r.Some? <==> IsValidDescription(e)
    ensures r.Some? ==> r.value.typeName == "Service" && r.value.name == hostName + "-" + SvcName(e)
    ensures r.Some? ==> r.value.parents == ChildParents(e) && r.value.exprs == ChildExprs(hostName, hostAttrs, e)
  {
    if !IsValidDescription(e) then None
    else Some(Builder("Service", hostName + "-" + SvcName(e), ChildParents(e), ChildExprs(hostName, hostAttrs, e)))
  }

  /** The expressions a child's builder sets, in order. */
  function ChildExprs(hostName: string, hostAttrs: seq<Entry>, e: Entry): seq<Expression> {
    OwnExprs(hostName, SvcName(e)) + CopiedAttributes(hostAttrs, e)
  }

  /** The child's own expressions: host_name, display_name, short_name. */
  function OwnExprs(hostName: string, svcname: string): seq<Expression> {
    [Expression("host_name", OperatorSet, Scalar(hostName)),
     Expression("display_name", OperatorSet, Scalar(svcname)),
     Expression("short_name", OperatorSet, Scalar(svcname))]
  }

  /** The expressions copied from the host and, for a dictionary entry, from
      the entry itself. */
  function CopiedAttributes(hostAttrs: seq<Entry>, e: Entry): seq<Expression> {
    CopyServiceAttributes(false, hostAttrs) + EntryAttributes(e)
  }

  /** The expressions a dictionary entry contributes. */
  function EntryAttributes(e: Entry): seq<Expression> {
    if e.val.Dict? then CopyServiceAttributes(true, e.val.entries) else []
  }

  /** The child's expressions and parents: host_name, display_name and
      short_name come first; the parents are the scalar itself, else the
      `templates` entries in order, else (no `templates`) the key. */
  lemma ChildBuilderShape(hostName: string, hostAttrs: seq<Entry>, e: Entry)
    requires IsValidDescription(e)
    ensures var b := ChildBuilder(hostName, hostAttrs, e).value;
      && |b.exprs| >= 3
      && b.exprs[..3] == [
        Expression("host_name", OperatorSet, Scalar(hostName)),
        Expression("display_name", OperatorSet, Scalar(SvcName(e))),
        Expression("short_name", OperatorSet, Scalar(SvcName(e)))]
      && (e.val.Scalar? ==> b.parents == [e.val.s] && SvcName(e) == e.val.s)
      && (e.val.Dict? && Get(e.val.entries, "templates").Dict? ==>
        var ts := Get(e.val.entries, "templates").entries;
        |b.parents| == |ts| && forall i :: 0 <= i < |ts| ==> b.parents[i] == ToText(ts[i].val).value)
      && (e.val.Dict? && Get(e.val.entries, "templates") == Empty ==> b.parents == [e.key])
  {
    var own := OwnExprs(hostName, SvcName(e));
    assert (own + CopiedAttributes(hostAttrs, e))[..3] == own;
  }

  /** A dependency list (`servicedependencies` or `hostdependencies`) of a
      child comes only from a dictionary entry, never from the host, and does
      come when the entry has a non-empty one. */
  lemma ChildDependencies(hostName: string, hostAttrs: seq<Entry>, e: Entry, key: string)
    requires key == "servicedependencies" || key == "hostdependencies"
    ensures var exprs := ChildExprs(hostName, hostAttrs, e);
      && (forall x :: x in exprs && x.key == key ==> e.val.Dict? && x.value == Get(e.val.entries, key))
      && (e.val.Dict? && Get(e.val.entries, key) != Empty ==>
            Expression(key, OperatorPlus, Get(e.val.entries, key)) in exprs)
  {
    var own := OwnExprs(hostName, SvcName(e));
    var fromHost := CopyServiceAttributes(false, hostAttrs);
    var fromDesc := EntryAttributes(e);
    assert ChildExprs(hostName, hostAttrs, e) == own + (fromHost + fromDesc);
    forall x: Expression | x in own + (fromHost + fromDesc) && x.key == key
      ensures e.val.Dict? && x.value == Get(e.val.entries, key)
    {
      assert x !in own && x !in fromHost;
    }
    if e.val.Dict? && Get(e.val.entries, key) != Empty {
      var i := if key == "servicedependencies" then 0 else 1;
      assert DependencyAttrs[i] == (key, OperatorPlus);
      assert Expression(key, OperatorPlus, Get(e.val.entries, key)) in fromDesc;
    }
  }

  /** The value of the last expression for `key`: the one that takes effect
      when expressions for it replace one another. */
  function LastValue(xs: seq<Expression>, key: string): (r: Option<Value>)
    ensures r.None? <==> forall i :: 0 <= i < |xs| ==> xs[i].key != key
    ensures r.Some? ==> exists i :: 0 <= i < |xs| && xs[i].key == key && xs[i].value == r.value
  {
    if xs == [] then None
    else
      var n := |xs| - 1;
      if xs[n].key == key then Some(xs[n].value)
      else
        assert forall i :: 0 <= i < n ==> xs[..n][i] == xs[i];
        LastValue(xs[..n], key)
  }

  lemma {:induction false} LastValueAppend(a: seq<Expression>, b: seq<Expression>, key: string)
    ensures LastValue(a + b, key) == if LastValue(b, key).Some? then LastValue(b, key) else LastValue(a, key)
    decreases |b|
  {
    if b == [] {
      assert a + b == a;
    } else {
      var n := |b| - 1;
      assert (a + b)[..|a| + n] == a + b[..n];
      assert (a + b)[|a| + n] == b[n];
      LastValueAppend(a, b[..n], key);
    }
  }

  /** The last expression a table copies for `key` holds the description's
      value, when the table lists `key` and the value is non-empty. */
  lemma {:induction false} CopyKeysLastValue(table: seq<(string, Operator)>, desc: seq<Entry>, key: string)
    ensures LastValue(CopyKeys(table, desc), key) ==
      if Get(desc, key) != Empty && exists i :: 0 <= i < |table| && table[i].0 == key then Some(Get(desc, key)) else None
    decreases |table|
  {
    if table != [] {
      var rest := CopyKeys(table[1..], desc);
      CopyKeysLastValue(table[1..], desc, key);
      assert forall i :: 1 <= i < |table| ==> table[1..][i - 1] == table[i];
      var v := Get(desc, table[0].0);
      if !v.Empty? {
        LastValueAppend([Expression(table[0].0, table[0].1, v)], rest, key);
      }
    }
  }

  /** For an attribute that replaces, the copied expressions end with the
      description's value, if it has one. */
  lemma CopiedLastValue(copyServiceAttrs: bool, desc: seq<Entry>, key: string)
    requires (key, OperatorSet) in ServiceAttrs
    ensures LastValue(CopyServiceAttributes(copyServiceAttrs, desc), key) ==
      if Get(desc, key) == Empty then None else Some(Get(desc, key))
  {
    var table := if copyServiceAttrs then ServiceAttrs + DependencyAttrs else ServiceAttrs;
    assert CopyServiceAttributes(copyServiceAttrs, desc) == CopyKeys(table, desc);
    CopyKeysLastValue(table, desc, key);
    var i :| 0 <= i < |ServiceAttrs| && ServiceAttrs[i] == (key, OperatorSet);
    assert table[i] == ServiceAttrs[i];
  }

  /** The entry's own value for an attribute that replaces (check intervals,
      checkers, short name) takes effect over the host's, because the entry's
      expressions follow the host's; without one, the host's value does. */
  lemma EntryOverridesHost(hostName: string, hostAttrs: seq<Entry>, e: Entry, key: string)
    requires (key, OperatorSet) in ServiceAttrs
    ensures var exprs := ChildExprs(hostName, hostAttrs, e);
      && (e.val.Dict? && Get(e.val.entries, key) != Empty ==>
            LastValue(exprs, key) == Some(Get(e.val.entries, key)))
      && ((!e.val.Dict? || Get(e.val.entries, key) == Empty) && Get(hostAttrs, key) != Empty ==>
            LastValue(exprs, key) == Some(Get(hostAttrs, key)))
  {
    var own := OwnExprs(hostName, SvcName(e));
    var fromHost := CopyServiceAttributes(false, hostAttrs);
    var fromDesc := EntryAttributes(e);
    assert ChildExprs(hostName, hostAttrs, e) == (own + fromHost) + fromDesc;
    LastValueAppend(own + fromHost, fromDesc, key);
    LastValueAppend(own, fromHost, key);
    CopiedLastValue(false, hostAttrs, key);
    if e.val.Dict? {
      CopiedLastValue(true, e.val.entries, key);
    }
  }

  /** Two entries give the same child name exactly when their service name
      parts agree. */
  lemma ChildNameInjective(hostName: string, a: Entry, b: Entry)
    ensures ChildName(hostName, a) == ChildName(hostName, b) <==> SvcName(a) == SvcName(b)
  {
    var p := hostName + "-";
    if ChildName(hostName, a) == ChildName(hostName, b) {
      assert SvcName(a) == ChildName(hostName, a)[|p|..];
      assert SvcName(b) == ChildName(hostName, b)[|p|..];
    }
  }

  /** One entry of the slave-services dictionary: child name -> item (the
      name of the committed configuration item, or a null item). */
  datatype SlaveEntry = SlaveEntry(key: string, item: Option<string>)

  predicate HasKey(d: seq<SlaveEntry>, k: string) {
    exists i :: 0 <= i < |d| && d[i].key == k
  }

  /** No key occurs twice, as in every dictionary of the source. */
  predicate UniqueKeys(d: seq<SlaveEntry>) {
    forall i, j :: 0 <= i < j < |d| ==> d[i].key != d[j].key
  }

  /** A dictionary as the reconciler leaves it: distinct keys, each mapped
      to the item of that name. */
  predicate WellFormed(d: seq<SlaveEntry>) {
    UniqueKeys(d) && forall i :: 0 <= i < |d| ==> d[i].item == Some(d[i].key)
  }

  /** The position of key `k` in `d`, if it is there. */
  function KeyIndex(d: seq<SlaveEntry>, k: string): (r: Option<nat>)
    ensures r.Some? ==> r.value < |d| && d[r.value].key == k
    ensures r.None? ==> !HasKey(d, k)
  {
    if d == [] then None
    else
      var n := |d| - 1;
      if d[n].key == k then Some(n)
      else
        var r := KeyIndex(d[..n], k);
        assert r.None? ==> forall i :: 0 <= i < n ==> d[i] == d[..n][i];
        r
  }

  /** Dictionary::Set: replace the value of an existing key, else add it. */
  function Put(d: seq<SlaveEntry>, k: string, item: Option<string>): (r: seq<SlaveEntry>)
    ensures forall x :: HasKey(r, x) <==> HasKey(d, x) || x == k
    ensures SlaveEntry(k, item) in r
    ensures forall i :: 0 <= i < |r| ==> r[i] in d || r[i] == SlaveEntry(k, item)
    ensures forall x :: x in d && x.key != k ==> x in r
    ensures UniqueKeys(d) ==> UniqueKeys(r) && forall i :: 0 <= i < |r| && r[i].key == k ==> r[i].item == item
  {
    match KeyIndex(d, k)
      case Some(p) =>
        var r := d[p := SlaveEntry(k, item)];
        assert forall i :: 0 <= i < |d| ==> r[i].key == d[i].key;
        assert forall x :: HasKey(d, x) ==> HasKey(r, x) by {
          forall x | HasKey(d, x) ensures HasKey(r, x) {
            var i :| 0 <= i < |d| && d[i].key == x;
            assert r[i].key == x;
          }
        }
        r
      case None =>
        var r := d + [SlaveEntry(k, item)];
        assert r[|d|] == SlaveEntry(k, item);
        assert forall x :: HasKey(d, x) ==> HasKey(r, x) by {
          forall x | HasKey(d, x) ensures HasKey(r, x) {
            var i :| 0 <= i < |d| && d[i].key == x;
            assert r[i].key == x;
          }
        }
        r
  }

  /** The new slave-services dictionary built from the committed builders, in
      order: each child name maps to the item committed for it, and a later
      child with the same name replaces an earlier one. */
  function NewServices(bs: seq<Builder>): (r: seq<SlaveEntry>)
    ensures forall x :: HasKey(r, x) <==> exists i :: 0 <= i < |bs| && bs[i].name == x
    ensures forall i :: 0 <= i < |r| ==> r[i].item == Some(r[i].key)
    ensures UniqueKeys(r)
  {
    if bs == [] then []
    else
      var n := |bs| - 1;
      var pre := NewServices(bs[..n]);
      var r := Put(pre, bs[n].name, Some(bs[n].name));
      PutKeepsSelfItems(pre, bs[n].name);
      NewServicesKeysSnoc(bs, n, pre, r);
      r
  }

  /** Setting a key to its own name keeps every key mapped to its own name. */
  lemma PutKeepsSelfItems(d: seq<SlaveEntry>, k: string)
    requires forall i :: 0 <= i < |d| ==> d[i].item == Some(d[i].key)
    ensures var r := Put(d, k, Some(k));
      forall i :: 0 <= i < |r| ==> r[i].item == Some(r[i].key)
  {
    var r := Put(d, k, Some(k));
    forall i | 0 <= i < |r| ensures r[i].item == Some(r[i].key) {
      if r[i] in d {
        var j :| 0 <= j < |d| && d[j] == r[i];
      }
    }
  }

  /** The keys after adding the last builder's name are the names of all
      the builders. */
  lemma NewServicesKeysSnoc(bs: seq<Builder>, n: nat, pre: seq<SlaveEntry>, r: seq<SlaveEntry>)
    requires n + 1 == |bs|
    requires forall x :: HasKey(pre, x) <==> exists i :: 0 <= i < n && bs[..n][i].name == x
    requires r == Put(pre, bs[n].name, Some(bs[n].name))
    ensures forall x :: HasKey(r, x) <==> exists i :: 0 <= i < |bs| && bs[i].name == x
  {
    forall x ensures HasKey(r, x) <==> exists i :: 0 <= i < |bs| && bs[i].name == x {
      if HasKey(pre, x) {
        var i :| 0 <= i < n && bs[..n][i].name == x;
        assert bs[i].name == x;
      }
      if exists i :: 0 <= i < n && bs[i].name == x {
        var i :| 0 <= i < n && bs[i].name == x;
        assert bs[..n][i].name == x;
      }
    }
  }

  /** The items of the old dictionary `olds` that the reconciler unregisters,
      in order: every non-null item whose name is not a key of `news`. */
  function Stale(olds: seq<SlaveEntry>, news: seq<SlaveEntry>): (r: seq<string>)
  {
    if olds == [] then []
    else
      var n := |olds| - 1;
      var pre := Stale(olds[..n], news);
      match olds[n].item
        case None => pre
        case Some(it) => if HasKey(news, it) then pre else pre + [it]
  }

  /** Exactly the non-null old items whose names are absent from the new
      dictionary are unregistered. */
  lemma {:induction false} StaleExactly(olds: seq<SlaveEntry>, news: seq<SlaveEntry>)
    ensures forall x :: x in Stale(olds, news) <==>
      !HasKey(news, x) && exists j :: 0 <= j < |olds| && olds[j].item == Some(x)
  {
    if olds != [] {
      var n := |olds| - 1;
      StaleExactly(olds[..n], news);
      assert forall j :: 0 <= j < n ==> olds[..n][j] == olds[j];
      forall x | !HasKey(news, x) && (exists j :: 0 <= j < |olds| && olds[j].item == Some(x))
        ensures x in Stale(olds, news)
      {
        var j :| 0 <= j < |olds| && olds[j].item == Some(x);
        if j < n {
          assert olds[..n][j].item == Some(x);
        }
      }
    }
  }

  /** Each stale item is unregistered once, when the non-null items of the
      old dictionary are distinct. */
  lemma {:induction false} StaleOnce(olds: seq<SlaveEntry>, news: seq<SlaveEntry>)
    requires forall i, j :: 0 <= i < j < |olds| && olds[i].item.Some? ==> olds[i].item != olds[j].item
    ensures var st := Stale(olds, news);
      forall i, j :: 0 <= i < j < |st| ==> st[i] != st[j]
  {
    if olds != [] {
      var n := |olds| - 1;
      var pre := olds[..n];
      assert forall j :: 0 <= j < n ==> pre[j] == olds[j];
      StaleOnce(pre, news);
      assert forall a, b :: 0 <= a < b < |Stale(pre, news)| ==> Stale(pre, news)[a] != Stale(pre, news)[b];
      StaleExactly(pre, news);
      var it := olds[n].item;
      if it.Some? && !HasKey(news, it.value) {
        var ps := Stale(pre, news);
        var st := Stale(olds, news);
        assert it.value !in ps;
        assert st == ps + [it.value];
        forall i, j | 0 <= i < j < |st| ensures st[i] != st[j] {
          assert st[i] == ps[i] && ps[i] in ps;
          if j < |ps| {
            assert st[j] == ps[j];
            assert ps[i] != ps[j];
          } else {
            assert st[j] == it.value;
          }
        }
      }
    }
  }

  /** A service whose name persists in the new dictionary is never
      unregistered. */
  lemma PersistingNotUnregistered(olds: seq<SlaveEntry>, news: seq<SlaveEntry>, x: string)
    requires HasKey(news, x)
    ensures x !in Stale(olds, news)
  {
    StaleExactly(olds, news);
  }

  /** Nothing is unregistered when every old item persists. */
  lemma {:induction false} StaleNone(olds: seq<SlaveEntry>, news: seq<SlaveEntry>)
    requires forall j :: 0 <= j < |olds| && olds[j].item.Some? ==> HasKey(news, olds[j].item.value)
    ensures Stale(olds, news) == []
  {
    if olds != [] {
      var n := |olds| - 1;
      assert forall j :: 0 <= j < n ==> olds[..n][j] == olds[j];
      StaleNone(olds[..n], news);
    }
  }

  /** Reconciling again with the dictionary the last reconciliation produced
      unregisters nothing. */
  lemma ReconcileAgainUnregistersNothing(bs: seq<Builder>)
    ensures Stale(NewServices(bs), NewServices(bs)) == []
  {
    var d := NewServices(bs);
    forall j | 0 <= j < |d| && d[j].item.Some?
      ensures HasKey(d, d[j].item.value)
    {
      assert d[j].key == d[j].item.value;
    }
    StaleNone(d, d);
  }

  predicate AllValid(es: seq<Entry>) {
    forall i :: 0 <= i < |es| ==> IsValidDescription(es[i])
  }

  /** The builders of a run of valid entries, in order. */
  function Builders(hostName: string, hostAttrs: seq<Entry>, es: seq<Entry>): (r: seq<Builder>)
    requires AllValid(es)
    ensures |r| == |es|
    ensures forall i :: 0 <= i < |es| ==> ChildBuilder(hostName, hostAttrs, es[i]) == Some(r[i])
  {
    seq(|es|, i requires 0 <= i < |es| => ChildBuilder(hostName, hostAttrs, es[i]).value)
  }

  /** Index of the first entry that is neither scalar nor dictionary. */
  function FirstInvalid(es: seq<Entry>): (r: Option<nat>)
    ensures r.None? <==> AllValid(es)
    ensures r.Some? ==> r.value < |es| && !IsValidDescription(es[r.value]) && AllValid(es[..r.value])
  {
    if es == [] then None
    else if !IsValidDescription(es[0]) then Some(0)
    else match FirstInvalid(es[1..])
      case None => None
      case Some(k) =>
        var p := es[..k + 1];
        var q := es[1..][..k];
        assert AllValid(p) by {
          forall i | 0 <= i < |p| ensures IsValidDescription(p[i]) {
            if i > 0 {
              assert p[i] == q[i - 1];
            }
          }
        }
        Some(k + 1)
  }

  function Names(bs: seq<Builder>): set<string> {
    set i | 0 <= i < |bs| :: bs[i].name
  }

  /** What the reconciler touches: the host's slave-services dictionary (None
      while it has none) and the registry's commit log, unregistration log
      and set of live service items. */
  datatype ReconcileState = ReconcileState(
    slaveServices: Option<seq<SlaveEntry>>,
    committed: seq<Builder>,
    unregistered: seq<string>,
    live: set<string>)

  /** The `services` attribute converted to a dictionary pointer. */
  function ServiceDescs(attrs: seq<Entry>): Result<seq<Entry>> {
    AsDict(Get(attrs, "services"))
  }

  /** UpdateSlaveServices as a function of the state before it: a no-op for
      an abstract host or one without a configuration item; a `services`
      value that is not a dictionary raises before anything happens;
      otherwise every entry is built and committed in order, the first entry
      that cannot be built raising its error (earlier commits stay); on
      success the stale old items are unregistered and the new dictionary
      replaces the old one. */
  function Reconcile(hostName: string, isAbstract: bool, hostItems: set<string>, attrs: seq<Entry>, s: ReconcileState)
    : (r: (Outcome, ReconcileState))
    ensures s.committed <= r.1.committed && s.unregistered <= r.1.unregistered
    ensures s.live <= r.1.live + (set x | x in r.1.unregistered[|s.unregistered|..])
    ensures r.0.Fail? ==> r.1.slaveServices == s.slaveServices && r.1.unregistered == s.unregistered
    ensures r.0.Pass? && r.1 != s ==> r.1.slaveServices.Some? && WellFormed(r.1.slaveServices.value)
  {
    if hostName !in hostItems || isAbstract then (Pass, s)
    else
      var conv := ServiceDescs(attrs);
      if conv.Err? then (Fail(conv.error), s)
      else
        var descs := conv.value;
        match FirstInvalid(descs)
          case Some(k) =>
            var bs := Builders(hostName, attrs, descs[..k]);
            (Fail(DescriptionError(descs[k]).value), s.(committed := s.committed + bs, live := s.live + Names(bs)))
          case None =>
            var bs := Builders(hostName, attrs, descs);
            var news := NewServices(bs);
            var stale := if s.slaveServices.Some? then Stale(s.slaveServices.value, news) else [];
            var t := ReconcileState(Some(news), s.committed + bs, s.unregistered + stale,
                                   (s.live + Names(bs)) - (set x | x in stale));
            assert t.unregistered[|s.unregistered|..] == stale;
            (Pass, t)
  }

  /** An abstract host, or one without a configuration item, is left alone. */
  lemma ReconcileSkipsTemplates(hostName: string, isAbstract: bool, hostItems: set<string>, attrs: seq<Entry>, s: ReconcileState)
    requires isAbstract || hostName !in hostItems
    ensures Reconcile(hostName, isAbstract, hostItems, attrs, s) == (Pass, s)
  {
  }

  /** A `services` value that is not a dictionary raises and changes
      nothing. */
  lemma ReconcileUnconvertibleServices(hostName: string, hostItems: set<string>, attrs: seq<Entry>, s: ReconcileState)
    requires hostName in hostItems
    requires !Get(attrs, "services").Empty? && !Get(attrs, "services").Dict?
    ensures Reconcile(hostName, false, hostItems, attrs, s) == (Fail(InvalidConversion), s)
  {
  }

  /** An entry that cannot be built raises its error: the dictionary and the
      unregistration log are untouched, while the children of the entries
      before it stay committed. */
  lemma ReconcileInvalidEntry(hostName: string, isAbstract: bool, hostItems: set<string>, attrs: seq<Entry>, s: ReconcileState, k: nat)
    requires hostName in hostItems && !isAbstract && ServiceDescs(attrs).Ok?
    requires k < |ServiceDescs(attrs).value| && !IsValidDescription(ServiceDescs(attrs).value[k])
    ensures var (o, t) := Reconcile(hostName, isAbstract, hostItems, attrs, s);
      && o.Fail? && (o.error == InvalidServiceDescription || o.error == InvalidConversion)
      && t.slaveServices == s.slaveServices
      && t.unregistered == s.unregistered
      && s.committed <= t.committed
      && |t.committed| - |s.committed| <= k
      && FirstInvalid(ServiceDescs(attrs).value).Some?
      && var j := FirstInvalid(ServiceDescs(attrs).value).value;
         var bs := Builders(hostName, attrs, ServiceDescs(attrs).value[..j]);
         && j <= k
         && t.committed == s.committed + bs
         && t.live == s.live + Names(bs)
  {
    var descs := ServiceDescs(attrs).value;
    var f := FirstInvalid(descs);
    assert f.Some?;
    assert f.value <= k;
  }

  /** After a successful reconciliation the new dictionary holds exactly the
      child names, each mapped to its own item, and every child is live. */
  lemma ReconcileSuccess(hostName: string, attrs: seq<Entry>, hostItems: set<string>, s: ReconcileState)
    requires hostName in hostItems
    requires ServiceDescs(attrs).Ok? && AllValid(ServiceDescs(attrs).value)
    ensures var descs := ServiceDescs(attrs).value;
      var (o, t) := Reconcile(hostName, false, hostItems, attrs, s);
      && o == Pass
      && t.slaveServices.Some?
      && (forall x :: HasKey(t.slaveServices.value, x) <==>
            exists i :: 0 <= i < |descs| && x == ChildName(hostName, descs[i]))
      && WellFormed(t.slaveServices.value)
      && (forall x :: HasKey(t.slaveServices.value, x) ==> x in t.live)
  {
    var descs := ServiceDescs(attrs).value;
    var bs := Builders(hostName, attrs, descs);
    var news := NewServices(bs);
    var t := Reconcile(hostName, false, hostItems, attrs, s).1;
    assert t.slaveServices == Some(news);
    ChildNamesAreKeys(hostName, attrs, descs);
    var stale := if s.slaveServices.Some? then Stale(s.slaveServices.value, news) else [];
    if s.slaveServices.Some? {
      StaleExactly(s.slaveServices.value, news);
    }
    forall x | HasKey(news, x) ensures x in t.live {
      var i :| 0 <= i < |bs| && bs[i].name == x;
      assert x in Names(bs);
      if s.slaveServices.Some? {
        assert x !in stale;
      }
    }
  }

  /** The keys of the dictionary built from valid entries are exactly their
      child names. */
  lemma ChildNamesAreKeys(hostName: string, attrs: seq<Entry>, descs: seq<Entry>)
    requires AllValid(descs)
    ensures forall x :: HasKey(NewServices(Builders(hostName, attrs, descs)), x) <==>
      exists i :: 0 <= i < |descs| && x == ChildName(hostName, descs[i])
  {
    var bs := Builders(hostName, attrs, descs);
    var news := NewServices(bs);
    forall x ensures HasKey(news, x) <==> exists i :: 0 <= i < |descs| && x == ChildName(hostName, descs[i]) {
      if HasKey(news, x) {
        var i :| 0 <= i < |bs| && bs[i].name == x;
        assert x == ChildName(hostName, descs[i]);
      }
      if exists i :: 0 <= i < |descs| && x == ChildName(hostName, descs[i]) {
        var i :| 0 <= i < |descs| && x == ChildName(hostName, descs[i]);
        assert bs[i].name == x;
      }
    }
  }

  /** After a successful reconciliation exactly the non-null old items whose
      names are no key of the new dictionary have been unregistered. */
  lemma ReconcileSuccessUnregisters(hostName: string, attrs: seq<Entry>, hostItems: set<string>, s: ReconcileState)
    requires hostName in hostItems
    requires ServiceDescs(attrs).Ok? && AllValid(ServiceDescs(attrs).value)
    ensures var t := Reconcile(hostName, false, hostItems, attrs, s).1;
      && t.slaveServices.Some?
      && s.unregistered <= t.unregistered
      && (forall x :: x in t.unregistered[|s.unregistered|..] <==>
            && s.slaveServices.Some?
            && !HasKey(t.slaveServices.value, x)
            && exists j :: 0 <= j < |s.slaveServices.value| && s.slaveServices.value[j].item == Some(x))
  {
    var news := NewServices(Builders(hostName, attrs, ServiceDescs(attrs).value));
    var t := Reconcile(hostName, false, hostItems, attrs, s).1;
    assert t.slaveServices == Some(news);
    var stale := if s.slaveServices.Some? then Stale(s.slaveServices.value, news) else [];
    assert t.unregistered == s.unregistered + stale;
    assert t.unregistered[|s.unregistered|..] == stale;
    if s.slaveServices.Some? {
      StaleExactly(s.slaveServices.value, news);
    }
  }

  /** Reconciling twice with an unchanged `services` attribute: the second
      pass unregisters nothing and leaves the same dictionary. */
  lemma ReconcileIdempotent(hostName: string, attrs: seq<Entry>, hostItems: set<string>, s: ReconcileState)
    ensures var (o1, t1) := Reconcile(hostName, false, hostItems, attrs, s);
      var (o2, t2) := Reconcile(hostName, false, hostItems, attrs, t1);
      o1 == Pass ==> o2 == Pass && t2.slaveServices == t1.slaveServices && t2.unregistered == t1.unregistered
  {
    var descs := ServiceDescs(attrs);
    if hostName in hostItems && descs.Ok? && AllValid(descs.value) {
      ReconcileAgainUnregistersNothing(Builders(hostName, attrs, descs.value));
    }
  }

  /** Starting from a dictionary a reconciliation produced, a reconciliation
      unregisters each stale child once. */
  lemma ReconcileUnregistersOnce(hostName: string, isAbstract: bool, hostItems: set<string>, attrs: seq<Entry>, s: ReconcileState)
    requires s.slaveServices.Some? ==> WellFormed(s.slaveServices.value)
    ensures var t := Reconcile(hostName, isAbstract, hostItems, attrs, s).1;
      var added := t.unregistered[|s.unregistered|..];
      forall i, j :: 0 <= i < j < |added| ==> added[i] != added[j]
  {
    var t := Reconcile(hostName, isAbstract, hostItems, attrs, s).1;
    var conv := ServiceDescs(attrs);
    if hostName in hostItems && !isAbstract && conv.Ok? && AllValid(conv.value) && s.slaveServices.Some? {
      var news := NewServices(Builders(hostName, attrs, conv.value));
      var olds := s.slaveServices.value;
      assert t.unregistered == s.unregistered + Stale(olds, news);
      assert t.unregistered[|s.unregistered|..] == Stale(olds, news);
      forall i, j | 0 <= i < j < |olds| && olds[i].item.Some? ensures olds[i].item != olds[j].item {
        assert olds[i].key != olds[j].key;
      }
      StaleOnce(olds, news);
    } else {
      assert t.unregistered == s.unregistered;
      assert t.unregistered[|s.unregistered|..] == [];
    }
  }
}

=== FILE: validation.dfy ===
/**
 * The validator of a host's `services` dictionary: every service an entry
 * names must be known to the compiler context or, where allowed, to the
 * global registry; each one that is not is reported as a non-fatal error.
 */
module Validation {
  import opened Values

  datatype CompilerError = CompilerError(fatal: bool, message: string)

  /** The compiler context of the compilation in progress. */
  class CompilerContext {
    /** Names of the Service items this compilation defines. */
    var items: set<string>
    /** The CompilerLinkExisting flag. */
    var linkExisting: bool
    /** The errors recorded so far. */
    var errors: seq<CompilerError>

    constructor (items: set<string>, linkExisting: bool)
      ensures this.items == items && this.linkExisting == linkExisting && errors == []
    {
      this.items := items;
      this.linkExisting := linkExisting;
      errors := [];
    }

    method AddError(fatal: bool, message: string)
      modifies this
      ensures errors == old(errors) + [CompilerError(fatal, message)]
      ensures items == old(items) && linkExisting == old(linkExisting)
    {
      errors := errors + [CompilerError(fatal, message)];
    }
  }

  /** What a lookup can see: whether a compiler context exists, the items it
      defines and its flag, and the Service items of the global registry. */
  datatype Lookup = Lookup(hasContext: bool, contextItems: set<string>, linkExisting: bool, globalItems: set<string>)

  /** A service name resolves through the context, or through the global
      registry when there is no context or the context links existing items. */
  predicate Resolves(l: Lookup, name: string) {
    || (l.hasContext && name in l.contextItems)
    || ((!l.hasContext || l.linkExisting) && name in l.globalItems)
  }

  /** What the validator makes of one entry of the dictionary. */
  datatype EntryName = Skip | Named(name: string) | Unconvertible(error: Error)

  /** A scalar names itself; a dictionary names its `service` field when it
      has one and its key otherwise; anything else (including an empty value)
      is skipped. */
  function NameOf(e: Entry): (r: EntryName)
    ensures e.val.Scalar? ==> r == Named(e.val.s)
    ensures e.val.Dict? && !Contains(e.val.entries, "service") ==> r == Named(e.key)
    ensures e.val.Dict? && Contains(e.val.entries, "service") ==>
      match ToText(Get(e.val.entries, "service"))
        case Ok(n) => r == Named(n)
        case Err(err) => r == Unconvertible(err)
    ensures r.Skip? <==> !e.val.Scalar? && !e.val.Dict?
  {
    match e.val
      case Scalar(s) => Named(s)
      case Dict(es) =>
        if !Contains(es, "service") then Named(e.key)
        else (match ToText(Get(es, "service"))
          case Ok(n) => Named(n)
          case Err(err) => Unconvertible(err))
      case _ => Skip
  }

  function NotFound(location: string, name: string): string {
    "Validation failed for " + location + ": Service '" + name + "' not found."
  }

  /** The non-fatal errors recorded for a run of unresolved names. */
  function Messages(location: string, names: seq<string>): (r: seq<CompilerError>)
    ensures |r| == |names|
    ensures forall i :: 0 <= i < |names| ==> r[i] == CompilerError(false, NotFound(location, names[i]))
  {
    if names == [] then []
    else Messages(location, names[..|names| - 1]) + [CompilerError(false, NotFound(location, names[|names| - 1]))]
  }

  /** The pass over the entries: the outcome, and the unresolved names
      reported along the way, in order. An unconvertible `service` field, or
      an unresolved name while no context exists to record it, stops the
      pass; the names reported before it stay reported. */
  function Scan(l: Lookup, es: seq<Entry>): (r: (seq<string>, Outcome))
    ensures !l.hasContext ==> r.0 == []
  {
    if es == [] then ([], Pass)
    else
      var (names, o) := Scan(l, es[..|es| - 1]);
      if o.Fail? then (names, o) else Step(l, names, es[|es| - 1])
  }

  /** One entry of the pass, after the names `names` have been reported. */
  function Step(l: Lookup, names: seq<string>, e: Entry): (r: (seq<string>, Outcome))
    ensures r.0 == names || (l.hasContext && NameOf(e).Named? && r == (names + [NameOf(e).name], Pass))
  {
    match NameOf(e)
      case Skip => (names, Pass)
      case Unconvertible(err) => (names, Fail(err))
      case Named(x) =>
        if Resolves(l, x) then (names, Pass)
        else if !l.hasContext then (names, Fail(NullContext))
        else (names + [x], Pass)
  }

  /** A pass that has succeeded on a prefix takes one `Step` per entry. */
  lemma ScanExtends(l: Lookup, es: seq<Entry>, i: nat)
    requires i < |es| && Scan(l, es[..i]).1 == Pass
    ensures Scan(l, es[..i + 1]) == Step(l, Scan(l, es[..i]).0, es[i])
  {
    assert es[..i + 1][..i] == es[..i];
  }

  /** Host::ValidateServiceDictionary. `globalItems` are the Service items of
      the global registry. */
  method ValidateServiceDictionary(arguments: seq<Value>, context: CompilerContext?, globalItems: set<string>)
    returns (r: Outcome)
    modifies context
    ensures context != null ==> context.items == old(context.items) && context.linkExisting == old(context.linkExisting)
    ensures |arguments| == 0 ==> r == Fail(MissingArgument("Missing argument: Location must be specified."))
    ensures |arguments| == 1 ==> r == Fail(MissingArgument("Missing argument: Attribute dictionary must be specified."))
    ensures |arguments| >= 2 && ToText(arguments[0]).Err? ==> r == Fail(ToText(arguments[0]).error)
    ensures |arguments| >= 2 && ToText(arguments[0]).Ok? && !arguments[1].Dict? ==> r == Fail(InvalidArgument)
    ensures |arguments| < 2 || ToText(arguments[0]).Err? || !arguments[1].Dict? ==>
      context != null ==> context.errors == old(context.errors)
    ensures |arguments| >= 2 && ToText(arguments[0]).Ok? && arguments[1].Dict? ==>
      var l := if context == null then Lookup(false, {}, false, globalItems)
               else Lookup(true, old(context.items), old(context.linkExisting), globalItems);
      var (names, o) := Scan(l, arguments[1].entries);
      && r == o
      && (context != null ==> context.errors == old(context.errors) + Messages(ToText(arguments[0]).value, names))
  {
    if |arguments| < 1 {
      return Fail(MissingArgument("Missing argument: Location must be specified."));
    }
    if |arguments| < 2 {
      return Fail(MissingArgument("Missing argument: Attribute dictionary must be specified."));
    }
    var loc := ToText(arguments[0]);
    if loc.Err? {
      return Fail(loc.error);
    }
    if !arguments[1].Dict? {
      return Fail(InvalidArgument);
    }
    ghost var l := if context == null then Lookup(false, {}, false, globalItems)
                   else Lookup(true, context.items, context.linkExisting, globalItems);
    r := ScanEntries(loc.value, arguments[1].entries, context, globalItems, l);
  }

  /** The loop of Host::ValidateServiceDictionary over the entries. */
  method ScanEntries(location: string, es: seq<Entry>, context: CompilerContext?, globalItems: set<string>, ghost l: Lookup)
    returns (r: Outcome)
    requires l == if context == null then Lookup(false, {}, false, globalItems)
                  else Lookup(true, context.items, context.linkExisting, globalItems)
    modifies context
    ensures context != null ==> context.items == old(context.items) && context.linkExisting == old(context.linkExisting)
    ensures r == Scan(l, es).1
    ensures context != null ==> context.errors == old(context.errors) + Messages(location, Scan(l, es).0)
  {
    ghost var names: seq<string> := [];
    for i := 0 to |es|
      invariant Scan(l, es[..i]) == (names, Pass)
      invariant context != null ==> context.items == old(context.items) && context.linkExisting == old(context.linkExisting)
      invariant context != null ==> context.errors == old(context.errors) + Messages(location, names)
    {
      ScanExtends(l, es, i);
      var o := CheckEntry(location, es[i], context, globalItems, l, names);
      if o.Fail? {
        ScanStops(l, es, i + 1);
        return o;
      }
      names := Step(l, names, es[i]).0;
    }
    assert es[..|es|] == es;
    r := Pass;
  }

  /** One iteration: the name an entry gives is looked up in the context and,
      where allowed, in the global registry; an unresolved name is recorded
      in the context, or raises when there is none. */
  method CheckEntry(location: string, e: Entry, context: CompilerContext?, globalItems: set<string>,
                    ghost l: Lookup, ghost names: seq<string>)
    returns (o: Outcome)
    requires l == if context == null then Lookup(false, {}, false, globalItems)
                  else Lookup(true, context.items, context.linkExisting, globalItems)
    modifies context
    ensures context != null ==> context.items == old(context.items) && context.linkExisting == old(context.linkExisting)
    ensures o == Step(l, names, e).1
    ensures context != null ==>
      context.errors == old(context.errors) + Messages(location, Step(l, names, e).0)[|names|..]
  {
    var entryName := NameOf(e);
    if entryName.Skip? {
      assert Messages(location, names)[|names|..] == [];
      return Pass;
    }
    if entryName.Unconvertible? {
      assert Messages(location, names)[|names|..] == [];
      return Fail(entryName.error);
    }
    var name := entryName.name;
    var found := context != null && name in context.items;
    if !found && (context == null || context.linkExisting) {
      found := name in globalItems;
    }
    assert found == Resolves(l, name);
    if !found {
      if context == null {
        return Fail(NullContext);
      }
      assert (names + [name])[..|names|] == names;
      assert Messages(location, names + [name])[|names|..] == [CompilerError(false, NotFound(location, name))];
      context.AddError(false, NotFound(location, name));
    } else {
      assert Messages(location, names)[|names|..] == [];
    }
    return Pass;
  }

  /** Once the pass has failed on a prefix, later entries change nothing. */
  lemma {:induction false} ScanStops(l: Lookup, es: seq<Entry>, k: nat)
    requires k <= |es| && Scan(l, es[..k]).1.Fail?
    ensures Scan(l, es) == Scan(l, es[..k])
    decreases |es| - k
  {
    if k < |es| {
      var p := es[..k + 1];
      assert p[..k] == es[..k];
      assert Scan(l, p) == Scan(l, es[..k]);
      ScanStops(l, es, k + 1);
    } else {
      assert es[..k] == es;
    }
  }

  /** A successful pass reports exactly the names of the entries that do not
      resolve, and only while a compiler context exists. */
  lemma {:induction false} ScanReportsUnresolved(l: Lookup, es: seq<Entry>)
    requires Scan(l, es).1 == Pass
    ensures forall x :: x in Scan(l, es).0 <==>
      exists i :: 0 <= i < |es| && NameOf(es[i]) == Named(x) && !Resolves(l, x)
    ensures Scan(l, es).0 != [] ==> l.hasContext
  {
    if es != [] {
      var n := |es| - 1;
      var pre := es[..n];
      ScanReportsUnresolved(l, pre);
      forall x ensures x in Scan(l, es).0 <==>
        exists i :: 0 <= i < |es| && NameOf(es[i]) == Named(x) && !Resolves(l, x)
      {
        if x in Scan(l, pre).0 {
          var i :| 0 <= i < |pre| && NameOf(pre[i]) == Named(x) && !Resolves(l, x);
          assert es[i] == pre[i];
        }
        if exists i :: 0 <= i < |es| && NameOf(es[i]) == Named(x) && !Resolves(l, x) {
          var i :| 0 <= i < |es| && NameOf(es[i]) == Named(x) && !Resolves(l, x);
          if i < n {
            assert pre[i] == es[i];
          }
        }
      }
    }
  }

  /** Entry `e` stops the pass with error `err`. */
  predicate StopsAt(l: Lookup, e: Entry, err: Error) {
    || (NameOf(e).Unconvertible? && err == NameOf(e).error)
    || (!l.hasContext && NameOf(e).Named? && !Resolves(l, NameOf(e).name) && err == NullContext)
  }

  /** The pass fails only at an unconvertible `service` field, or at an
      unresolved name while no compiler context exists. */
  lemma {:induction false} ScanFailsOnlyAt(l: Lookup, es: seq<Entry>)
    requires Scan(l, es).1.Fail?
    ensures exists i :: 0 <= i < |es| && StopsAt(l, es[i], Scan(l, es).1.error)
  {
    var n := |es| - 1;
    var pre := es[..n];
    if Scan(l, pre).1.Fail? {
      ScanFailsOnlyAt(l, pre);
      var i :| 0 <= i < |pre| && StopsAt(l, pre[i], Scan(l, pre).1.error);
      assert es[i] == pre[i];
    } else {
      assert 0 <= n < |es|;
    }
  }

  /** When every named service resolves, the pass succeeds and reports
      nothing. */
  lemma {:induction false} AllResolvedAccepted(l: Lookup, es: seq<Entry>)
    requires forall i :: 0 <= i < |es| ==> !NameOf(es[i]).Unconvertible?
    requires forall i :: 0 <= i < |es| && NameOf(es[i]).Named? ==> Resolves(l, NameOf(es[i]).name)
    ensures Scan(l, es) == ([], Pass)
  {
    if es != [] {
      var pre := es[..|es| - 1];
      assert forall i :: 0 <= i < |pre| ==> pre[i] == es[i];
      AllResolvedAccepted(l, pre);
    }
  }

  /** Inside a compiler context without CompilerLinkExisting, already active
      services do not count: only the context's own items resolve. */
  lemma ContextWithoutLinkIgnoresRegistry(l: Lookup, name: string)
    requires l.hasContext && !l.linkExisting
    ensures Resolves(l, name) <==> name in l.contextItems
  {
  }
}

=== FILE: values.dfy ===
/**
 * Dynamically typed attribute values, ordered dictionaries and the error
 * kinds raised by the host operations.
 */
module Values {

  /** A configuration value: empty, a scalar (numbers and strings are kept in
      their string form), a dictionary, or some other object. */
  datatype Value = Empty | Scalar(s: string) | Dict(entries: seq<Entry>) | Object

  /** One key/value pair of a dictionary. */
  datatype Entry = Entry(key: string, val: Value)

  datatype Error =
    | InvalidConversion            // a value converted to a type it does not hold
    | NoSuchHost(host: string)
    | NoSuchService(service: string)
    | ExpiredReference(service: string)
    | InvalidNamePair              // GetServiceByShortName on a non-scalar, non-dictionary
    | InvalidServiceDescription    // a services entry that is neither scalar nor dictionary
    | MissingArgument(message: string)
    | InvalidArgument
    | NullContext                  // an error reported while no compiler context exists

  datatype Result<T> = Ok(value: T) | Err(error: Error)

  datatype Option<T> = None | Some(value: T)

  /** The outcome of an operation that returns nothing or raises. */
  datatype Outcome = Pass | Fail(error: Error)

  /** Index of the first entry with key `k`, if any. */
  function Find(es: seq<Entry>, k: string): (r: Option<nat>)
    ensures r.Some? ==> r.value < |es| && es[r.value].key == k
    ensures r.Some? ==> forall j :: 0 <= j < r.value ==> es[j].key != k
    ensures r.None? ==> forall j :: 0 <= j < |es| ==> es[j].key != k
  {
    if es == [] then None
    else if es[0].key == k then Some(0)
    else match Find(es[1..], k)
      case None => None
      case Some(i) => Some(i + 1)
  }

  predicate Contains(es: seq<Entry>, k: string) {
    Find(es, k).Some?
  }

  /** Dictionary::Get: the value stored under `k`, or Empty when absent. */
  function Get(es: seq<Entry>, k: string): (r: Value)
    ensures !Contains(es, k) ==> r == Empty
    ensures Contains(es, k) ==> exists j :: 0 <= j < |es| && es[j] == Entry(k, r)
  {
    match Find(es, k)
      case None => Empty
      case Some(i) => es[i].val
  }

  /** The entries of an attribute stored as a dictionary pointer; any other
      value reads as a null pointer, holding nothing. */
  function Entries(v: Value): seq<Entry> {
    if v.Dict? then v.entries else []
  }

  /** Conversion of a value to a dictionary pointer: an empty value becomes
      the null pointer (iterated as nothing), a dictionary converts, and any
      other value raises. */
  function AsDict(v: Value): (r: Result<seq<Entry>>)
    ensures r.Ok? <==> v.Empty? || v.Dict?
    ensures v.Empty? ==> r == Ok([])
    ensures v.Dict? ==> r == Ok(v.entries)
    ensures r.Err? ==> r.error == InvalidConversion
  {
    match v
      case Empty => Ok([])
      case Dict(es) => Ok(es)
      case _ => Err(InvalidConversion)
  }

  /** Conversion of a value to a string. */
  function ToText(v: Value): (r: Result<string>)
    ensures r.Ok? <==> (v.Scalar? || v.Empty?)
    ensures v.Scalar? ==> r == Ok(v.s)
    ensures v.Empty? ==> r == Ok("")
    ensures r.Err? ==> r.error == InvalidConversion
  {
    match v
      case Scalar(s) => Ok(s)
      case Empty => Ok("")
      case _ => Err(InvalidConversion)
  }
}
